=== FILE: README.md ===
# Kampüs wallet core in Dafny

A model of the logic inside a small React Native wallet for the Avalanche
C-Chain. Rendering and I/O are left out. The model covers the event handlers
and state machines:

- **Credential vault** (`Vault`, `Auth`, `SetPassword`, `EnterPassword`,
  `Settings`, `Flows`):
  - The wallet seals a bundle `{encryptedPrivateKey, encryptedMnemonic}` under
    a password and writes it to one fixed secure-store slot (service
    `currentUserWallet`, username `walletBundle`).
  - It opens the bundle to log in and to reveal secrets. Only non-empty
    decrypted text counts as success.
  - It re-keys the bundle through a two-step password change. Between the
    steps the plaintext is staged in the authentication provider.
  - The provider's session state machine decides which screen is shown.
- **Recovery-phrase quiz and import** (`Shuffle`, `MnemonicQuiz`,
  `ImportWallet`):
  - the Fisher–Yates shuffle;
  - the word pool of phrase words plus decoys;
  - the three target positions;
  - the step machine that checks the user's picks;
  - validation of an imported phrase or private key.
- **Portfolio valuation and history** (`Valuation`, `History`, `Sorting`):
  - BigNumber fixed-point valuation in Turkish lira from balances and
    Chainlink answers;
  - case-insensitive typing of explorer transactions;
  - the merged, newest-first, at-most-five activity list.
- **Constant tables** (`Networks`, `Tokens`, `Feeds`): the two networks, the
  token list and the price-feed table, with their lookups.

Foreign code is passed in as parameters and is constrained only by what the
wallet relies on:

- The CryptoJS AES passphrase cipher is a `Vault.Cipher`. Its hypothesis
  `Vault.Sound` requires two things:
  - decrypting under the sealing password gives the plaintext back;
  - a ciphertext is never the empty string, because the OpenSSL-style output
    always carries its salt header.

  Nothing is assumed about decrypting under another password.
- The ethers key derivation and private-key validation are a
  `Vault.KeyOracle`.
- Secure-store, RPC and explorer reads are inputs:
  - a `Vault.Read` or `Vault.Slot`;
  - a `Valuation.ChainView`;
  - `History.Response` values;
  - boolean flags for operations that throw.
- `Math.random` is replaced by the sequence of swap partners it would have
  drawn. `Shuffle.Draw` shows that each partner falls in range.

Two points where the model takes care to follow the code exactly:

- Every exit from `handleConfirmNewPassword` past the password checks clears
  the staged plaintext (`SettingsScreen.tsx:206`, `:228`, `:233`). Closing the
  dialog (`SettingsScreen.tsx:333-336`, `:380`) and logging out
  (`RootNavigator.tsx:83-94`) do not. `Auth.Logout` keeps staging, as the
  code does. The dialog close is the finding below.
- Empty decrypted text is classified as a wrong password. That is all the code
  decides. The model proves that classification and says nothing about
  whether a wrong password actually yields empty text.

The secure store is modelled by three small definitions in `Vault`:

- `Vault.ReadSlot` turns the slot and a failure flag into a `Vault.Read`.
- `Vault.Serialize` maps a sealed bundle to the parsed form of its
  `JSON.stringify` text.
- `Vault.Write` puts that payload in the slot under username `walletBundle`.

These definitions are the abstraction itself. What they promise is carried by
`Vault.WriteSealHolds` and by the flows that read back what was written.

## Model

| member | source | states |
|---|---|---|
| Common.Take | src/screens/WalletScreen.tsx:487 | `slice(0, k)` keeps exactly the first `min(k, n)` elements, unchanged and in order |
| Text.TrimStart | src/screens/auth/ImportWalletScreen.tsx:31 | the result is a suffix of the input, everything cut is white space, and the result does not start with white space |
| Text.TrimEnd | src/screens/auth/ImportWalletScreen.tsx:31 | the result is a prefix of the input, everything cut is white space, and the result does not end with white space |
| Text.Trim | src/screens/auth/ImportWalletScreen.tsx:40 | the result is the slice of the input that starts where the leading white space ends, and it neither starts nor ends with white space |
| Text.TrimCutsWhitespace | src/screens/auth/ImportWalletScreen.tsx:40 | everything before and after the trimmed slice is white space |
| Text.TrimEmptyIff | src/screens/auth/ImportWalletScreen.tsx:31-36 | input trims to `""` exactly when it is all white space, so only whitespace-only input takes the blank-input branch |
| Text.TrimIdempotent | src/screens/auth/ImportWalletScreen.tsx:40-52 | trimming an already-trimmed phrase changes nothing |
| Text.Split | src/screens/auth/ImportWalletScreen.tsx:40 | `split(' ')` yields one more part than there are separators, and no part contains the separator |
| Text.JoinSplit | src/screens/auth/ImportWalletScreen.tsx:40 | joining the parts of a split with the separator gives back the original string |
| Text.SplitWithoutSeparator | src/screens/auth/VerifyMnemonicScreen.tsx:26 | a string without the separator splits into a single part, itself |
| Text.LowerChar | src/screens/WalletScreen.tsx:420 | an upper-case ASCII letter maps to the lower-case letter 32 code points above it, and every other character is kept |
| Text.ToLower | src/screens/WalletScreen.tsx:420-425 | lower-casing keeps the length and lowers each character in place |
| Text.ToLowerIdempotent | src/screens/WalletScreen.tsx:420-425 | lower-casing twice equals lower-casing once, so comparing lowered strings ignores case |
| Text.CodeUnits | src/screens/auth/SetPasswordScreen.tsx:27 | a character takes two UTF-16 code units exactly when it lies above U+FFFF, otherwise one |
| Text.Utf16Length | src/screens/auth/SetPasswordScreen.tsx:27 | `password.length` counts UTF-16 code units: at least the character count and at most twice it, and equal to it exactly when no character lies above U+FFFF |
| Text.Utf16LengthAppend | src/screens/auth/SetPasswordScreen.tsx:27 | the UTF-16 length of a concatenation is the sum of the lengths |
| Text.ThreeEmojiAreSixUnits | src/screens/auth/SetPasswordScreen.tsx:27 | three emoji are three characters but six UTF-16 units |
| Text.Clamp | src/screens/WalletScreen.tsx:90 | an index is clamped into `[0, n]`: a negative index becomes 0, one past `n` becomes `n`, and indices in range are kept |
| Text.Substring | src/screens/WalletScreen.tsx:90 | `substring(a, b)` with in-range bounds is the slice between them in either order; an end past the string stops at the end, and a negative start starts at 0; it never exceeds the string |
| Networks.Lookup | src/constants/networks.ts:28-31 | `SUPPORTED_NETWORKS[name]` is defined exactly for the two network names, and it returns the network carrying that name |
| Networks.Active | src/screens/WalletScreen.tsx:108-109 | with no or an empty network name the screen uses Mainnet; Fuji only when asked for by name; any unknown name falls back to Mainnet |
| Networks.TableFacts | src/constants/networks.ts:1-31 | the table has exactly the two names as keys, each maps to the network of that name, chain ids and RPC URLs differ, and both use AVAX |
| Tokens.FindIndex | src/constants/tokens.ts:66 | `find` returns the first matching position; nothing before it matches, and when nothing is found nothing matches at all |
| Tokens.FindBySymbol | src/constants/tokens.ts:65-67 | `findTokenBySymbol` returns a listed token whose symbol equals the query ignoring case, and it is undefined exactly when no symbol matches |
| Tokens.AddressOf | src/constants/tokens.ts:69-75 | `getTokenAddress` is defined exactly when some token has the exact symbol and an address on that network, and then it is that address |
| Tokens.SymbolsDistinct | src/constants/tokens.ts:21-63 | no two listed symbols coincide, even after lower-casing, so both lookups are unambiguous |
| Tokens.NoAddressForKmpsOrAvax | src/constants/tokens.ts:22-39 | KMPS and AVAX have no contract address on any network |
| Tokens.DecimalsAndFixedPrice | src/constants/tokens.ts:22-61 | WBTC.e counts in 8 decimals and the others in 18; only KMPS has a fixed lira price |
| Feeds.FeedFor | src/constants/chainlinkFeeds.ts:53-57 | `getFeedAddress` is undefined for an unknown pair; for a known pair it is that pair's entry for the requested network, which may be undefined |
| Feeds.TryUsdMainnetOnly | src/constants/chainlinkFeeds.ts:45-50 | TRY/USD has a mainnet feed and no fuji feed |
| Feeds.AllFeedsHaveEightDecimals | src/constants/chainlinkFeeds.ts:14-51 | every feed in the table has a non-empty address and 8 decimals, the scale the valuation divides by |
| Vault.Seal | src/screens/auth/SetPasswordScreen.tsx:67-73 | the mnemonic ciphertext is `null` exactly when no non-empty mnemonic is given; under a sound cipher both ciphertexts decrypt to what was sealed |
| Vault.WriteSealHolds | src/screens/auth/SetPasswordScreen.tsx:67-79 | after writing a sealed bundle, the slot holds the key, and the mnemonic exactly when one was given, decryptable under the sealing password |
| Vault.Open | src/screens/auth/EnterPasswordScreen.tsx:36-45 | decryption succeeds exactly when it yields non-empty text, and it is "empty" exactly when it yields `""` |
| Vault.OpenSealed | src/screens/auth/EnterPasswordScreen.tsx:36-41 | opening a sealed field under its sealing password gives back the plaintext, or "empty" for an empty plaintext |
| Auth.CheckAuthState | src/navigation/RootNavigator.tsx:48-70 | after start-up loading is off and nobody is authenticated; the password is asked for exactly when a record was read; nothing else changes |
| Auth.Login | src/navigation/RootNavigator.tsx:72-81 | login stores the key, selects the given network or `Avalanche Mainnet`, authenticates and stops asking for the password; address and staging are kept |
| Auth.Logout | src/navigation/RootNavigator.tsx:83-94 | a successful logout empties the slot, forgets key and address, returns to Mainnet and the auth flow; a failed deletion changes nothing; staging is untouched either way |
| Auth.SetNetwork | src/navigation/RootNavigator.tsx:96-99 | only the network field changes, and it changes to the given name |
| Auth.SetWalletAddress | src/navigation/RootNavigator.tsx:101-103 | only the address field changes, and it changes to the given address |
| Auth.SwitchToAuthFlow | src/navigation/RootNavigator.tsx:105-111 | authentication and password entry are both turned off, and nothing else changes |
| Auth.Stage | src/navigation/RootNavigator.tsx:114-117 | reading staging back after staging a pair gives exactly that pair, and nothing else changes |
| Auth.ClearStaged | src/navigation/RootNavigator.tsx:126-129 | reading staging back after clearing gives `(null, null)`, and nothing else changes |
| Auth.StagedIsLatestWrite | src/navigation/RootNavigator.tsx:48-129 | after any run of provider calls, the staging area reads back the pair of the latest set or clear; start-up, login, logout, network and address changes and leaving for the auth flow never touch it |
| Auth.Render | src/navigation/RootNavigator.tsx:155-175 | the loading screen iff loading; password entry iff it is required and nobody is authenticated; the app iff authenticated; the auth flow otherwise |
| Auth.StartupScreen | src/navigation/RootNavigator.tsx:38-70 | from a fresh provider, start-up shows password entry exactly when a record is stored and readable, and the auth flow otherwise |
| Auth.LoginShowsApp | src/navigation/RootNavigator.tsx:164-173 | once loaded, any login shows the main app |
| Auth.LogoutShowsAuthFlow | src/navigation/RootNavigator.tsx:83-94 | a successful logout shows the auth flow and leaves the slot empty |
| SetPassword.ChooseKey | src/screens/auth/SetPasswordScreen.tsx:41-61 | a supplied key wins when a mnemonic came with it; a lone mnemonic is derived from; a lone key must be accepted by ethers; with neither there is no wallet data |
| SetPassword.HandleSetPassword | src/screens/auth/SetPasswordScreen.tsx:25-100 | passwords shorter than six UTF-16 code units (JavaScript's `length`) or mismatched store nothing; success happens exactly when the rules pass, a key is chosen, and reset and write succeed; it logs in with the chosen key and stores its sealed bundle; past the rules loading ends off; a key source rejected past the rules shows its own error (invalid key, no wallet data, failed derivation) and keeps the slot; a failing reset shows the setup error and keeps the stored record; a write failure after a reset shows the setup error and empties the slot |
| SetPassword.EmojiPasswordPassesLengthRule | src/screens/auth/SetPasswordScreen.tsx:27-34 | three emoji entered twice pass both password rules, as their JavaScript length is six |
| SetPassword.SetupStoresLoginKey | src/screens/auth/SetPasswordScreen.tsx:67-88 | after a successful setup, the stored key decrypts under the same password to exactly the key passed to `login`, and the mnemonic is stored exactly when given |
| SetPassword.SetupKeyIsValid | src/screens/auth/SetPasswordScreen.tsx:41-61 | with a coherent oracle and a valid supplied key, setup only ever logs in with a non-empty key that ethers accepts |
| EnterPassword.Attempt | src/screens/auth/EnterPasswordScreen.tsx:29-63 | a failed read, a missing record or empty secret, unparsable JSON, and a missing encrypted key each map to their own error |
| EnterPassword.HandleLogin | src/screens/auth/EnterPasswordScreen.tsx:26-67 | loading ends off; the error is the attempt's classification on every path (failed read, no record, corrupt JSON, no key, wrong password, decryption failure); `onAuthSuccess` is called exactly when there is no error, and only with non-empty, ethers-accepted text the stored key decrypts to; conversely a stored key that decrypts to such text logs in with it, one ethers rejects or whose decoding throws gives the decryption error, and the wrong-password error appears exactly when the stored key decrypts to `""` |
| EnterPassword.UnlockHeldKey | src/screens/auth/EnterPasswordScreen.tsx:30-41 | a slot holding a valid key under a password unlocks with that password and yields exactly that key |
| Settings.Reveal | src/screens/SettingsScreen.tsx:77-124 | text is shown exactly when a `walletBundle` record's requested field decrypts to non-empty text, and it is that text; the field decrypting to `""` gives the wrong-password error and a throwing decode the decryption error; a missing mnemonic has its own error; a foreign or empty record shows nothing; a failed read, unparsable JSON, or a `null` bundle with a kind selected gives the retrieval error; no kind selected, or a key request on a bundle without a key, gives the nothing-to-show error |
| Settings.RetrieveInfo | src/screens/SettingsScreen.tsx:67-126 | an empty password only sets an error; otherwise something is shown exactly when no error is set, what is shown is what the bundle reveals, and a refusal shows its own error |
| Settings.OpenInfoModal | src/screens/SettingsScreen.tsx:52-65 | opening the reveal dialog selects the kind and clears the password, the shown text and the error |
| Settings.RevealHeld | src/screens/SettingsScreen.tsx:77-115 | a slot holding key and mnemonic under a password reveals them under that password, and refuses the mnemonic when none was stored |
| Settings.OpenChangeModal | src/screens/SettingsScreen.tsx:129-136 | the change dialog opens at step 1 with every field and the error cleared |
| Settings.StagedMnemonic | src/screens/SettingsScreen.tsx:155-166 | step 1 stages `null` when there is no mnemonic or decoding throws, and otherwise the decoded text (empty included) |
| Settings.VerifyCurrentPassword | src/screens/SettingsScreen.tsx:138-187 | step 2 is reached exactly when the stored key decrypts to non-empty text under the current password, and then the key and mnemonic are staged; each other case gets its own error (empty field, failed read, no wallet record, unparsable bundle, no key, empty decryption, throwing decode), which leaves session and dialog unchanged but for the error |
| Settings.ConfirmNewPassword | src/screens/SettingsScreen.tsx:189-235 | a new password shorter than six UTF-16 code units (JavaScript's `length`) or mismatched changes nothing; past that, staging is cleared on every path; a missing staged key returns to step 1; a failing write keeps the slot and dialog and sets only the error; otherwise the staged pair sealed under the new password is written and the dialog is closed, reset to step 1 with its new-password fields and error cleared |
| Settings.EmojiNewPasswordPassesLengthRule | src/screens/SettingsScreen.tsx:189-235 | three emoji entered twice as the new password pass both password checks and clear staging |
| Settings.CloseChangeModalAsWritten | src/screens/SettingsScreen.tsx:333-337 | the cancel button only hides the dialog; the hardware back button also returns to step 1 and clears the error; either way the session, including staging, is left as it was |
| Settings.StagedKeySurvivesClose | src/screens/SettingsScreen.tsx:380 | closing the dialog after step 1 leaves the staged plaintext key in the session |
| Settings.CloseChangeModal | src/screens/SettingsScreen.tsx:329-380 | the corrected close changes the dialog exactly as the screen does, and also leaves staging empty |
| Settings.ChangeNetwork | src/screens/SettingsScreen.tsx:41-47 | choosing the active network is a no-op; any other choice changes only the network |
| Settings.HandleLogout | src/screens/SettingsScreen.tsx:33-39 | logout acts as the provider's logout, and it resets the dialog's new-password fields, step and error whether or not the deletion succeeded |
| Shuffle.Draw | src/screens/auth/VerifyMnemonicScreen.tsx:14 | `floor(random * current)` for a random value in `[0, 1)` is a partner in `[0, current)` |
| Shuffle.Swap | src/screens/auth/VerifyMnemonicScreen.tsx:16 | a swap keeps the length, exchanges the two positions, and leaves every other position alone |
| Shuffle.SwapPermutes | src/screens/auth/VerifyMnemonicScreen.tsx:16 | a swap keeps the multiset of elements |
| Shuffle.FisherYatesPermutes | src/screens/auth/VerifyMnemonicScreen.tsx:11-19 | after any number of iterations, the array is a permutation of the input |
| Shuffle.ShuffleArray | src/screens/auth/VerifyMnemonicScreen.tsx:11-19 | the loop ends, with `currentIndex` falling to 0, and returns the same length and multiset for any in-range partners |
| Sorting.Insert | src/screens/WalletScreen.tsx:484 | inserting adds exactly one element, and the head is either the new element or the old head |
| Sorting.InsertSorted | src/screens/WalletScreen.tsx:484 | inserting into a list sorted by descending key keeps it sorted |
| Sorting.InsertPermutes | src/screens/WalletScreen.tsx:484 | inserting adds exactly the new element to the multiset |
| Sorting.InsertMembers | src/screens/WalletScreen.tsx:484 | every element after insertion is the new one or an old one |
| Sorting.SortDesc | src/screens/WalletScreen.tsx:484 | sorting keeps the length |
| Sorting.SortDescCorrect | src/screens/WalletScreen.tsx:484 | the sort orders by descending key and is a permutation of its input |
| Sorting.PrefixKeepsLargest | src/screens/WalletScreen.tsx:487 | cutting a sorted list keeps a sorted sub-multiset, and nothing cut has a larger key than anything kept |
| MnemonicQuiz.Words | src/screens/auth/VerifyMnemonicScreen.tsx:26 | splitting a phrase always yields at least one word |
| MnemonicQuiz.Decoys | src/screens/auth/VerifyMnemonicScreen.tsx:39 | the decoys are the first `min(10, max(0, 18 - n))` decoy words, in order |
| MnemonicQuiz.BuildPool | src/screens/auth/VerifyMnemonicScreen.tsx:35-41 | the pool is a permutation of the phrase words plus the decoys; it has `n + min(10, max(0, 18 - n))` buttons, 18 for a twelve-word phrase |
| MnemonicQuiz.Range | src/screens/auth/VerifyMnemonicScreen.tsx:44 | `[...Array(n).keys()]` is `0 .. n-1` in order |
| MnemonicQuiz.RangeCounts | src/screens/auth/VerifyMnemonicScreen.tsx:44 | every position below `n` occurs exactly once in the key list, and nothing else occurs |
| MnemonicQuiz.ShuffledPrefix | src/screens/auth/VerifyMnemonicScreen.tsx:44-46 | any prefix of the shuffled key list holds distinct positions below `n` |
| MnemonicQuiz.StrictlyAscending | src/screens/auth/VerifyMnemonicScreen.tsx:46 | ascending and free of repeats means strictly ascending and in range |
| MnemonicQuiz.ChooseTargets | src/screens/auth/VerifyMnemonicScreen.tsx:43-47 | the selection order has `min(3, n)` positions, each below `n`, strictly increasing and so duplicate-free |
| MnemonicQuiz.Target | src/screens/auth/VerifyMnemonicScreen.tsx:52-53 | the requested word exists exactly when the step and the chosen position are in range, and then it is the phrase word at that position |
| MnemonicQuiz.SelectWord | src/screens/auth/VerifyMnemonicScreen.tsx:50-68 | the error clears exactly on a correct pick; a wrong pick changes nothing but the error; a correct pick appends the word and either advances one step or, at the last step, navigates on with the same mnemonic |
| MnemonicQuiz.StartInProgress | src/screens/auth/VerifyMnemonicScreen.tsx:29-31 | the fresh quiz satisfies the progress invariant whenever there is a target |
| MnemonicQuiz.SelectWordKeepsProgress | src/screens/auth/VerifyMnemonicScreen.tsx:52-59 | each tap keeps `|selected| == step` with the i-th pick equal to the phrase word at the i-th target; on completion all targets are collected in order |
| MnemonicQuiz.CorrectPicksComplete | src/screens/auth/VerifyMnemonicScreen.tsx:55-64 | from any point in progress, tapping the requested words completes the quiz and hands the phrase to the set-password screen |
| ImportWallet.HandleImport | src/screens/auth/ImportWalletScreen.tsx:17-64 | blank input stops with a mode-specific error; a phrase must have twelve words and be derivable, and then navigates with the trimmed phrase and derived key; a key must be valid, and then navigates with the trimmed key alone; every stop clears loading |
| ImportWallet.SwitchImportType | src/screens/auth/ImportWalletScreen.tsx:73-82 | switching mode clears the error and the input, and keeps the loading state |
| ImportWallet.AcceptedPhraseShape | src/screens/auth/ImportWalletScreen.tsx:39-52 | an accepted phrase is non-empty, has no white space at either end, and is twelve space-separated words that rejoin to it |
| ImportWallet.ImportedKeyIsSealed | src/screens/auth/ImportWalletScreen.tsx:49-55 | whatever is accepted carries a key, and the set-password screen's source selection picks exactly that key |
| Valuation.FeedNetworkOf | src/screens/WalletScreen.tsx:167 | the feed network is mainnet exactly when the active network is Mainnet |
| Valuation.FeedAnswer | src/screens/WalletScreen.tsx:237-250 | with a table feed for the pair on that network and a successful read, the answer is the feed's latest answer; with no feed, an empty address or a throwing read it is 0 |
| Valuation.PricePair | src/screens/WalletScreen.tsx:267-272 | only WETH.e and WBTC.e have a price pair, and each pair has a feed on both networks |
| Valuation.UsdToTryRate | src/screens/WalletScreen.tsx:170-205 | the rate is `10^16 div answer` for a non-zero TRY/USD answer, and 30 lira with 8 decimals when the answer is zero, missing or unreadable |
| Valuation.RateRoundsReciprocalDown | src/screens/WalletScreen.tsx:187-192 | a live rate is the largest 8-decimal rate whose product with the answer stays within `10^16` |
| Valuation.FujiUsesDefaultRate | src/screens/WalletScreen.tsx:173-205 | off Mainnet there is no TRY/USD feed, so the fixed rate applies |
| Valuation.QuoteFor | src/screens/WalletScreen.tsx:217-298 | KMPS is never read; AVAX takes the native balance and the AVAX/USD answer, or nothing when the balance read throws; a bridged token with an address takes its balance there and its pair's answer (0 without a pair), or nothing when the balance read throws; a token without an address holds nothing |
| Valuation.MulDiv | src/screens/WalletScreen.tsx:319-320 | `a·b div 10^d` is the floor: scaled back up it lies within one unit below the exact product |
| Valuation.ValueTry | src/screens/WalletScreen.tsx:303-342 | KMPS is valued at the floor of balance × fixed price (8 decimals) scaled down by its decimals; any other token without a price or without a rate is worth 0 |
| Valuation.ValueUnderstatesByLessThanAUnit | src/screens/WalletScreen.tsx:311-337 | scaled back up, a priced token's value falls short of balance × price × rate by less than one unit of the result plus the USD stage's rounding carried through the rate |
| Valuation.ValueNeverOverstates | src/screens/WalletScreen.tsx:311-337 | scaled back up, a token's value never exceeds balance × price × rate, and a zero price or zero rate values it at 0 |
| Valuation.KmpsAddsNothing | src/screens/WalletScreen.tsx:217-221 | KMPS is valued at 0 whatever the rate, because its balance is never read |
| Valuation.TotalAppend | src/screens/WalletScreen.tsx:359 | adding a row to the list adds its value to the total |
| Valuation.ValueTokens | src/screens/WalletScreen.tsx:208-360 | one row per token, in order, and the running total equals the sum of the rows |
| Valuation.FetchAssets | src/screens/WalletScreen.tsx:145-368 | without a provider, address or network the list is empty and the total 0; otherwise one row per `TOKENS` entry valued at the single rate, and the total is their sum |
| History.Classify | src/screens/WalletScreen.tsx:419-426 | self iff both ends are the wallet, send iff only the sender is, receive iff only the recipient is, and contract call iff neither is, all ignoring case |
| History.ClassifyIgnoresCase | src/screens/WalletScreen.tsx:454-461 | addresses that agree ignoring case give the same type |
| History.FromNormal | src/screens/WalletScreen.tsx:427-437 | a plain transaction is typed against the wallet, keeps its timestamp, has no token, and has failed exactly when the explorer marks it `"1"` |
| History.FromTransfer | src/screens/WalletScreen.tsx:462-473 | a token transfer is typed against the wallet, keeps its timestamp and symbol, and is never marked failed |
| History.TransferDecimals | src/screens/WalletScreen.tsx:451-452 | a transfer uses the listed token's decimals, or 18 for an unlisted symbol |
| History.MapNormal | src/screens/WalletScreen.tsx:416-439 | every plain record becomes exactly one transaction, in order |
| History.MapTransfers | src/screens/WalletScreen.tsx:449-475 | every transfer record becomes exactly one transaction, in order |
| History.Combined | src/screens/WalletScreen.tsx:413-481 | the merge holds one transaction per record of each usable reply: the plain records first, each typed from the record at its position, then the transfers after them |
| History.EmptyListError | src/screens/WalletScreen.tsx:489-502 | an empty list shows an error exactly when some reply has status `"0"` and neither says "No transactions found" |
| History.FetchHistory | src/screens/WalletScreen.tsx:384-511 | a missing address or network only empties the list; a thrown fetch shows an error; otherwise it lists `min(5, n)` merged records, newest first, with an error only on an empty list the explorer flagged, and then exactly the explorer's error; loading ends |
| History.ListedAreNewest | src/screens/WalletScreen.tsx:483-487 | no merged record left out is newer than a listed one |
| History.ShortAddress | src/screens/WalletScreen.tsx:90 | there is a short address exactly when there is an address, and for an address of at least six characters it is the first six characters, `...`, and the last four |
| History.ShortAddressOfFullAddress | src/screens/WalletScreen.tsx:90 | a 42-character address shortens to 13 characters keeping both ends |
| Flows.SetupThenLogin | src/screens/auth/EnterPasswordScreen.tsx:30-41 | logging in with the password just set authenticates with exactly the key setup logged in with |
| Flows.RotationRekeys | src/screens/SettingsScreen.tsx:138-235 | a full password change stages the stored key, writes a bundle holding the same key and mnemonic under the new password, clears staging, and login with the new password yields the key |
| Flows.EmptyMnemonicDropped | src/screens/SettingsScreen.tsx:155-213 | a mnemonic that decrypts to `""` under the old password is staged empty and dropped from the rotated bundle |

## Left out

- CryptoJS AES and its OpenSSL key derivation are foreign primitives. `Vault.Sound` assumes only the round trip and non-empty ciphertext. Whether a wrong password yields empty text, garbage or a throw is left open.
- ethers key derivation, BIP-39 checks, private-key validation, providers and contracts are oracles or inputs. `getAddress` checksumming, and the case of the token address it passes to the contract, are left out. A token balance is read by the table address.
- The keychain's asynchronous API, service options and JSON text are abstracted to one optional record. Its secret is one of: empty, unparsable, `null`, or an object with optional fields. JSON values that parse to other types (numbers, arrays) are not modelled.
- `fetch`, `Promise.all`, the 60-second polling, `requestAnimationFrame` and React state batching are timing plumbing. Each handler is one atomic transition on its inputs.
- Floating-point and locale display work is left out: `formatUnits`, `parseFloat`, `toLocaleString('tr-TR')`, `toFixed`, dates, and the displayed price and value strings. This includes KMPS's lira/USD price line and each row's formatted balance.
- `Alert`, `Clipboard`, `console`, icons and styles are left out. So are the UI-only screens and navigators: AppNavigator, AuthNavigator, Welcome, CreateWalletWarning, GenerateMnemonic, Swap and NFT, plus App.tsx, index.js and metro.config.js.
- The wallet screen's effect that creates the provider and signer and publishes the address (WalletScreen.tsx:107-143) is left out, except its network fallback (`Networks.Active`).
- Valuation.FetchAssets: the outer `catch` at WalletScreen.tsx:369-373 is not modelled. Every read that can throw is caught inside the loop, so in the model no error reaches it. The `isLoadingAssets` and `refreshing` flags are not modelled.
- Valuation.ValueTry: balances and Chainlink answers are naturals. BigNumber's signed values and division truncating toward zero only differ for negative answers, which the model does not represent.
- History.FetchHistory: a record whose mapping throws (a `value` that `formatEther`/`formatUnits` rejects, or a missing `from`, `to` or `tokenSymbol`) is not a `RawTx`; the whole fetch then falls into the catch, which the model represents as `replies == None`, and the formatting of `value` itself is not modelled. `parseInt(timeStamp)` is taken as an already-parsed integer, so a `NaN` timestamp is not modelled. The list's display strings and the history loading flag before the fetch are left out.
- Sorting.SortDesc: the sort is proved ordered and a permutation. Its handling of ties (stability) is not stated, so the order of records with equal timestamps is left open.
- Text.ToLower: lower-cases ASCII letters only, whereas `toLowerCase` also folds other scripts. Addresses are ASCII. An explorer's `tokenSymbol` need not be: the Kelvin sign U+212A lower-cases to `k` in JavaScript, so `"\u212AMPS"` matches KMPS there and not here. That changes nothing the model states, because KMPS's 18 decimals equal the fallback of `History.TransferDecimals`.
- Networks.Lookup: `SUPPORTED_NETWORKS[name]` on a plain object also finds inherited keys such as `"constructor"`; the model has no such keys. Names reach the lookup only from login's default and from the network table, so no such key can arrive.
- Tokens.AddressOf: `token.addresses[networkName]` likewise finds inherited keys; not modelled, for the same reason as Networks.Lookup.
- Text.Substring: strings are sequences of code points rather than UTF-16 code units, so lengths differ from JavaScript's for astral characters. None occur in addresses.
- Shuffle.ShuffleArray: `Math.random` is replaced by a sequence of in-range partners (see `Shuffle.Draw`). No property of the distribution is stated.

## Findings

| source | as written | input that shows it | evidently intended | confidence | as-written member | corrected member |
|---|---|---|---|---|---|---|
| src/screens/SettingsScreen.tsx:333-380 | closing the password-change dialog resets only the dialog: the cancel button hides it, and the hardware back button also returns to step 1 and clears the error; neither clears the plaintext key and mnemonic staged by step 1, which stay in the provider | verify the current password successfully (staging now holds the key), then tap cancel: the staged key is still in the session | staging is discarded on every exit from the dialog, as every path of `handleConfirmNewPassword` past the password checks already does | not executed | Settings.CloseChangeModalAsWritten, Settings.StagedKeySurvivesClose | Settings.CloseChangeModal |

=== FILE: auth.dfy ===
/**
 * The authentication provider at the root of the navigation tree: the
 * in-memory session, its transitions, the password-change staging area, and
 * which screen is shown.
 */
module Auth {
  import opened Common
  import opened Vault
  import Networks

  /** The network a fresh session and a login without an explicit one use. */
  const DefaultNetwork: string := Networks.Mainnet.name

  datatype Session = Session(
    isAuthenticated: bool,
    isLoading: bool,
    userPrivateKey: Option<string>,
    walletAddress: Option<string>,
    requiresPasswordEntry: bool,
    network: Option<string>,
    stagedKey: Option<string>,       // plaintext key between the two password-change steps
    stagedMnemonic: Option<string>)  // plaintext mnemonic between the two steps

  /** The provider's state before the start-up check has run. */
  const Initial: Session := Session(false, true, None, None, false, Some(DefaultNetwork), None, None)

  /**
   * `checkAuthState`: a stored record asks for the password; no record, or a
   * failing read, sends the user to the create/import flow. Loading ends
   * either way and nothing else changes.
   */
  function CheckAuthState(s: Session, read: Read): (r: Session)
    ensures !r.isLoading && !r.isAuthenticated
    ensures r.requiresPasswordEntry <==> read.Found?
    ensures r.userPrivateKey == s.userPrivateKey && r.walletAddress == s.walletAddress
    ensures r.network == s.network
    ensures r.stagedKey == s.stagedKey && r.stagedMnemonic == s.stagedMnemonic
  {
    var base := s.(isAuthenticated := false, isLoading := false);
    match read
    case Found(_) => base.(requiresPasswordEntry := true)
    case Absent => base.(requiresPasswordEntry := false)
    case ReadFailed => base.(requiresPasswordEntry := false)
  }

  /**
   * `login(privateKey, networkName = 'Avalanche Mainnet')`: keep the key,
   * select the network, and become authenticated.
   */
  function Login(s: Session, privateKey: string, networkName: Option<string>): (r: Session)
    ensures r.isAuthenticated && !r.requiresPasswordEntry
    ensures r.userPrivateKey == Some(privateKey)
    ensures networkName.None? ==> r.network == Some("Avalanche Mainnet")
    ensures networkName.Some? ==> r.network == networkName
    ensures r.isLoading == s.isLoading && r.walletAddress == s.walletAddress
    ensures r.stagedKey == s.stagedKey && r.stagedMnemonic == s.stagedMnemonic
  {
    s.(userPrivateKey := Some(privateKey),
       network := Some(networkName.GetOr(DefaultNetwork)),
       isAuthenticated := true,
       requiresPasswordEntry := false)
  }

  /**
   * `logout`: delete the stored bundle, then forget the key and address,
   * return to Mainnet and to the auth flow. If the deletion throws, nothing
   * changes. The staging area is not touched.
   */
  function Logout(s: Session, slot: Slot, deleteFails: bool): (r: (Session, Slot))
    ensures deleteFails ==> r == (s, slot)
    ensures !deleteFails ==> r.1.None?
    ensures !deleteFails ==> r.0.userPrivateKey.None? && r.0.walletAddress.None?
    ensures !deleteFails ==> r.0.network == Some(Networks.Mainnet.name)
    ensures !deleteFails ==> !r.0.isAuthenticated && !r.0.requiresPasswordEntry
    ensures r.0.isLoading == s.isLoading
    ensures r.0.stagedKey == s.stagedKey && r.0.stagedMnemonic == s.stagedMnemonic
  {
    if deleteFails then (s, slot)
    else
      (s.(userPrivateKey := None,
          walletAddress := None,
          network := Some(DefaultNetwork),
          isAuthenticated := false,
          requiresPasswordEntry := false),
       None)
  }

  /** `setNetwork`: only the network changes. */
  function SetNetwork(s: Session, network: string): (r: Session)
    ensures r.network == Some(network)
    ensures r.(network := s.network) == s
  {
    s.(network := Some(network))
  }

  /** `setWalletAddress`: only the address changes. */
  function SetWalletAddress(s: Session, address: Option<string>): (r: Session)
    ensures r.walletAddress == address
    ensures r.(walletAddress := s.walletAddress) == s
  {
    s.(walletAddress := address)
  }

  /** `switchToAuthFlow`: leave the password screen for create/import; storage is untouched. */
  function SwitchToAuthFlow(s: Session): (r: Session)
    ensures !r.isAuthenticated && !r.requiresPasswordEntry
    ensures r.(isAuthenticated := s.isAuthenticated, requiresPasswordEntry := s.requiresPasswordEntry) == s
  {
    s.(isAuthenticated := false, requiresPasswordEntry := false)
  }

  /** `getDecryptedDataForPasswordChange`. */
  function Staged(s: Session): (Option<string>, Option<string>) {
    (s.stagedKey, s.stagedMnemonic)
  }

  /** `setDecryptedDataForPasswordChange`: reading back gives exactly the staged pair. */
  function Stage(s: Session, privateKey: string, mnemonic: Option<string>): (r: Session)
    ensures Staged(r) == (Some(privateKey), mnemonic)
    ensures r.(stagedKey := s.stagedKey, stagedMnemonic := s.stagedMnemonic) == s
  {
    s.(stagedKey := Some(privateKey), stagedMnemonic := mnemonic)
  }

  /** `clearDecryptedDataForPasswordChange`: reading back gives `(null, null)`. */
  function ClearStaged(s: Session): (r: Session)
    ensures Staged(r) == (None, None)
    ensures r.(stagedKey := s.stagedKey, stagedMnemonic := s.stagedMnemonic) == s
  {
    s.(stagedKey := None, stagedMnemonic := None)
  }

  /** One call into the provider. */
  datatype Event =
    | CheckAuth(read: Read)
    | LoginWith(privateKey: string, networkName: Option<string>)
    | LogoutWith(slot: Slot, deleteFails: bool)
    | SelectNetwork(name: string)
    | SelectAddress(address: Option<string>)
    | LeaveForAuthFlow
    | StagePair(key: string, mnemonic: Option<string>)
    | ClearPair

  function Step(s: Session, e: Event): Session {
    match e
    case CheckAuth(read) => CheckAuthState(s, read)
    case LoginWith(key, net) => Login(s, key, net)
    case LogoutWith(slot, fails) => Logout(s, slot, fails).0
    case SelectNetwork(name) => SetNetwork(s, name)
    case SelectAddress(address) => SetWalletAddress(s, address)
    case LeaveForAuthFlow => SwitchToAuthFlow(s)
    case StagePair(key, mnemonic) => Stage(s, key, mnemonic)
    case ClearPair => ClearStaged(s)
  }

  function Run(s: Session, events: seq<Event>): Session
    decreases |events|
  {
    if events == [] then s else Run(Step(s, events[0]), events[1..])
  }

  /** The pair of the latest set or clear in `events`, or `before` when there is none. */
  function LatestStaged(before: (Option<string>, Option<string>), events: seq<Event>): (Option<string>, Option<string>)
    decreases |events|
  {
    if events == [] then before
    else
      var next := match events[0]
        case StagePair(key, mnemonic) => (Some(key), mnemonic)
        case ClearPair => (None, None)
        case _ => before;
      LatestStaged(next, events[1..])
  }

  /**
   * The staging area reads back what the latest set or clear put there:
   * start-up, login, logout, network and address changes and leaving for
   * the auth flow never touch it.
   */
  lemma {:induction false} StagedIsLatestWrite(s: Session, events: seq<Event>)
    ensures Staged(Run(s, events)) == LatestStaged(Staged(s), events)
    decreases |events|
  {
    if events != [] {
      StagedIsLatestWrite(Step(s, events[0]), events[1..]);
    }
  }

  /** What the provider renders. */
  datatype Screen = LoadingScreen | PasswordEntry | MainApp | AuthFlow

  function Render(s: Session): (r: Screen)
    ensures r == LoadingScreen <==> s.isLoading
    ensures r == PasswordEntry <==> !s.isLoading && s.requiresPasswordEntry && !s.isAuthenticated
    ensures r == MainApp <==> !s.isLoading && s.isAuthenticated
    ensures r == AuthFlow <==> !s.isLoading && !s.isAuthenticated && !s.requiresPasswordEntry
  {
    if s.isLoading then LoadingScreen
    else if s.requiresPasswordEntry && !s.isAuthenticated then PasswordEntry
    else if s.isAuthenticated then MainApp
    else AuthFlow
  }

  /**
   * Start-up decides the first screen from the slot alone: the password
   * screen when a record is stored and readable, the auth flow otherwise.
   */
  lemma StartupScreen(slot: Slot, readFails: bool)
    ensures Render(CheckAuthState(Initial, ReadSlot(slot, readFails))) ==
      if slot.Some? && !readFails then PasswordEntry else AuthFlow
  {
  }

  /** After a login the main app is shown, whatever screen was shown before (once loaded). */
  lemma LoginShowsApp(s: Session, privateKey: string)
    requires !s.isLoading
    ensures Render(Login(s, privateKey, None)) == MainApp
  {
  }

  /** A successful logout shows the auth flow and leaves no stored wallet. */
  lemma LogoutShowsAuthFlow(s: Session, slot: Slot)
    requires !s.isLoading
    ensures Render(Logout(s, slot, false).0) == AuthFlow
    ensures Logout(s, slot, false).1.None?
  {
  }
}

=== FILE: common.dfy ===
/**
 * Small shared vocabulary: an optional value (the `undefined` / `null` of the
 * original TypeScript) and JavaScript's clamping `slice(0, k)`.
 */
module Common {

  /** A value that may be absent (`T | undefined` or `T | null`). */
  datatype Option<+T> = None | Some(value: T) {

    /** The value, or `default` when absent (JavaScript's `x ?? default`). */
    function GetOr(default: T): T {
      match this
      case Some(v) => v
      case None => default
    }
  }

  /** JavaScript truthiness of an optional string: present and not empty. */
  predicate Present(o: Option<string>) {
    o.Some? && o.value != ""
  }

  /** `xs.slice(0, k)`: the first `k` elements, or all of them when there are fewer. */
  function Take<T>(xs: seq<T>, k: nat): (r: seq<T>)
    ensures |r| == if k <= |xs| then k else |xs|
    ensures forall i :: 0 <= i < |r| ==> r[i] == xs[i]
  {
    if k <= |xs| then xs[..k] else xs
  }

  /** The smaller of two naturals. */
  function Min(a: nat, b: nat): nat {
    if a <= b then a else b
  }
}

=== FILE: enter_password.dfy ===
/** The unlock screen shown when a wallet is stored: `handleLogin`'s decision tree. */
module EnterPassword {
  import opened Common
  import opened Vault

  datatype LoginError =
    | NoWallet        // no record, or an empty secret
    | CorruptData     // the secret is not JSON
    | NoEncryptedKey  // the bundle has no encrypted private key
    | WrongPassword   // the key decrypts to empty text
    | DecryptFailed   // decoding throws, or ethers rejects the decrypted key
    | LoginFailed     // the store read throws

  /** The error shown, the key handed to `onAuthSuccess` (at most once), and the loading flag. */
  datatype LoginOutcome = LoginOutcome(error: Option<LoginError>, authenticatedWith: Option<string>, isLoading: bool)

  /** The classification of one login attempt, before the screen state is written. */
  function Attempt(read: Read, password: string, c: Cipher, oracle: KeyOracle): (r: Option<LoginError>)
    ensures read == ReadFailed ==> r == Some(LoginFailed)
    ensures read == Absent || (read.Found? && read.entry.secret == Blank) ==> r == Some(NoWallet)
    ensures read.Found? && read.entry.secret == Unparsable ==> r == Some(CorruptData)
    ensures read.Found? && read.entry.secret == JsonNull ==> r == Some(NoEncryptedKey)
    ensures read.Found? && read.entry.secret.JsonObject? && !Present(read.entry.secret.encryptedPrivateKey) ==>
      r == Some(NoEncryptedKey)
  {
    match read
    case ReadFailed => Some(LoginFailed)
    case Absent => Some(NoWallet)
    case Found(entry) =>
      match entry.secret
      case Blank => Some(NoWallet)
      case Unparsable => Some(CorruptData)
      case JsonNull => Some(NoEncryptedKey)
      case JsonObject(pk, _) =>
        if !Present(pk) then Some(NoEncryptedKey)
        else
          match Open(c, pk.value, password)
          case Undecodable => Some(DecryptFailed)
          case Empty => Some(WrongPassword)
          case Plain(key) => if oracle.valid(key) then None else Some(DecryptFailed)
  }

  /** The private key a successful attempt decrypted, if any. */
  function DecryptedKey(read: Read, password: string, c: Cipher): Option<string> {
    if read.Found? && read.entry.secret.JsonObject? && Present(read.entry.secret.encryptedPrivateKey) then
      match Open(c, read.entry.secret.encryptedPrivateKey.value, password)
      case Plain(key) => Some(key)
      case _ => None
    else None
  }

  /**
   * `handleLogin`: authentication succeeds exactly when the stored private
   * key decrypts to non-empty text that ethers accepts, and then it
   * succeeds with that text; every path ends with loading off.
   */
  function HandleLogin(read: Read, password: string, c: Cipher, oracle: KeyOracle): (r: LoginOutcome)
    ensures !r.isLoading
    ensures r.error == Attempt(read, password, c, oracle)
    ensures r.authenticatedWith.Some? <==> r.error.None?
    ensures r.authenticatedWith.Some? ==>
      && read.Found? && read.entry.secret.JsonObject?
      && Present(read.entry.secret.encryptedPrivateKey)
      && c.decrypt(read.entry.secret.encryptedPrivateKey.value, password) == Text(r.authenticatedWith.value)
      && r.authenticatedWith.value != ""
      && oracle.valid(r.authenticatedWith.value)
    ensures r.error == Some(WrongPassword) <==>
      && read.Found? && read.entry.secret.JsonObject?
      && Present(read.entry.secret.encryptedPrivateKey)
      && c.decrypt(read.entry.secret.encryptedPrivateKey.value, password) == Text("")
    ensures read.Found? && read.entry.secret.JsonObject? && Present(read.entry.secret.encryptedPrivateKey) ==>
      var d := c.decrypt(read.entry.secret.encryptedPrivateKey.value, password);
      && (d.Text? && d.text != "" && oracle.valid(d.text) ==> r == LoginOutcome(None, Some(d.text), false))
      && (d.Text? && d.text != "" && !oracle.valid(d.text) ==> r == LoginOutcome(Some(DecryptFailed), None, false))
      && (d.Malformed? ==> r == LoginOutcome(Some(DecryptFailed), None, false))
  {
    var error := Attempt(read, password, c, oracle);
    if error.None? then LoginOutcome(None, DecryptedKey(read, password, c), false)
    else LoginOutcome(error, None, false)
  }

  /**
   * A slot holding a valid key under `password` unlocks with that password
   * and yields exactly that key.
   */
  lemma UnlockHeldKey(c: Cipher, oracle: KeyOracle, slot: Slot, password: string, key: string, mnemonic: Option<string>)
    requires Holds(c, slot, password, key, mnemonic)
    requires oracle.valid(key) && key != ""
    ensures HandleLogin(ReadSlot(slot, false), password, c, oracle) == LoginOutcome(None, Some(key), false)
  {
    var p := slot.value.secret;
    assert Open(c, p.encryptedPrivateKey.value, password) == Plain(key);
  }
}

=== FILE: feeds.dfy ===
/** The Chainlink price-feed table and its lookup by pair and feed network. */
module Feeds {
  import opened Common

  /** The two feed networks the table distinguishes (`'mainnet' | 'fuji'`). */
  datatype FeedNetwork = MainnetFeeds | FujiFeeds

  datatype FeedData = FeedData(address: string, decimals: nat)

  /** One row of the table: the feed on each network, when there is one. */
  datatype PairFeeds = PairFeeds(mainnet: Option<FeedData>, fuji: Option<FeedData>)

  /** `CHAINLINK_FEEDS`. */
  const ChainlinkFeeds: map<string, PairFeeds> := map[
    "AVAX/USD" := PairFeeds(
      Some(FeedData("0x0A77230d17318075983913bC2145DB16C7366156", 8)),
      Some(FeedData("0x5498BB86BC934c8D34FDA08E81D444153d0D06aD", 8))),
    "ETH/USD" := PairFeeds(
      Some(FeedData("0x976B3D034E162d8bD72D6b9C989d545b839003b0", 8)),
      Some(FeedData("0x86d67c3D3BC88332C7d791360130553473e7B964", 8))),
    "BTC/USD" := PairFeeds(
      Some(FeedData("0x2779D32d5166BAaa2B2b658333bA7e6Ec0C65743", 8)),
      Some(FeedData("0x3363Aa78137c51754A8cF57022930bb3125C2396", 8))),
    "TRY/USD" := PairFeeds(
      Some(FeedData("0xA61bF273688Ea095b5e4c11f1AF5E763F7aEEE91", 8)),
      None)
  ]

  /** The fixed-point scale every feed answer carries: 8 decimals. */
  const FeedDecimals: nat := 8

  /**
   * `getFeedAddress`: undefined for a pair not in the table, otherwise that
   * pair's entry for the requested network (itself possibly undefined).
   */
  function FeedFor(pair: string, network: FeedNetwork): (r: Option<FeedData>)
    ensures pair !in ChainlinkFeeds ==> r.None?
    ensures pair in ChainlinkFeeds && network == MainnetFeeds ==> r == ChainlinkFeeds[pair].mainnet
    ensures pair in ChainlinkFeeds && network == FujiFeeds ==> r == ChainlinkFeeds[pair].fuji
  {
    if pair !in ChainlinkFeeds then None
    else
      var feed := ChainlinkFeeds[pair];
      match network
      case MainnetFeeds => feed.mainnet
      case FujiFeeds => feed.fuji
  }

  /** TRY/USD is published on mainnet only. */
  lemma TryUsdMainnetOnly()
    ensures FeedFor("TRY/USD", FujiFeeds).None?
    ensures FeedFor("TRY/USD", MainnetFeeds).Some?
  {
  }

  /** Every feed in the table answers with 8 decimals, the scale the valuation divides by. */
  lemma AllFeedsHaveEightDecimals(pair: string, network: FeedNetwork)
    ensures FeedFor(pair, network).Some? ==> FeedFor(pair, network).value.decimals == FeedDecimals
    ensures FeedFor(pair, network).Some? ==> FeedFor(pair, network).value.address != ""
  {
  }
}

=== FILE: flows.dfy ===
/**
 * Properties that span several screens: what setup stores is what login
 * unlocks, and a password change re-keys the stored wallet without losing
 * its key.
 */
module Flows {
  import opened Common
  import opened Vault
  import Text
  import Auth
  import SetPassword
  import EnterPassword
  import Settings

  /**
   * Setting a password and then logging in with it authenticates with
   * exactly the key setup logged in with.
   */
  lemma SetupThenLogin(
    params: SetPassword.Params, password: string, confirmation: string, wasLoading: bool,
    slot: Slot, c: Cipher, oracle: KeyOracle, resetFails: bool, writeFails: bool)
    requires Sound(c) && Coherent(oracle)
    requires Present(params.mnemonic) && Present(params.privateKey) ==> oracle.valid(params.privateKey.value)
    ensures var r := SetPassword.HandleSetPassword(params, password, confirmation, wasLoading, slot, c, oracle, resetFails, writeFails);
      r.loginKey.Some? ==>
        EnterPassword.HandleLogin(ReadSlot(r.slot, false), password, c, oracle) == EnterPassword.LoginOutcome(None, r.loginKey, false)
  {
    var r := SetPassword.HandleSetPassword(params, password, confirmation, wasLoading, slot, c, oracle, resetFails, writeFails);
    if r.loginKey.Some? {
      SetPassword.SetupStoresLoginKey(params, password, confirmation, wasLoading, slot, c, oracle, resetFails, writeFails);
      SetPassword.SetupKeyIsValid(params, password, confirmation, wasLoading, slot, c, oracle, resetFails, writeFails);
      EnterPassword.UnlockHeldKey(c, oracle, r.slot, password, r.loginKey.value, params.mnemonic);
    }
  }

  /** The mnemonic a rotation carries over: the stored one when there is one. */
  function Carried(mnemonic: Option<string>): Option<string> {
    if Present(mnemonic) then mnemonic else None
  }

  /**
   * A complete password change on a slot holding `key` (and `mnemonic`)
   * under `before`: step 1 with `before` stages the plaintext, step 2 with a new
   * password entered twice writes a bundle that holds the same key and
   * mnemonic under `after`, clears staging, and login with `after` yields the key.
   */
  lemma RotationRekeys(
    c: Cipher, oracle: KeyOracle, s: Auth.Session, m: Settings.ChangeModal, slot: Slot,
    before: string, after: string, key: string, mnemonic: Option<string>)
    requires Sound(c)
    requires Holds(c, slot, before, key, mnemonic)
    requires key != "" && oracle.valid(key)
    requires m.currentPassword == before && before != ""
    requires Text.Utf16Length(after) >= MinPasswordLength
    ensures var (s1, m1) := Settings.VerifyCurrentPassword(s, m, ReadSlot(slot, false), c);
      && m1.step == 2 && m1.error.None?
      && Auth.Staged(s1) == (Some(key), Carried(mnemonic))
      && var (s2, m2, slot2) := Settings.ConfirmNewPassword(s1, m1.(newPassword := after, confirmNewPassword := after), slot, c, false);
      && Holds(c, slot2, after, key, mnemonic)
      && Auth.Staged(s2) == (None, None)
      && m2.step == 1 && m2.error.None? && !m2.visible
      && EnterPassword.HandleLogin(ReadSlot(slot2, false), after, c, oracle) == EnterPassword.LoginOutcome(None, Some(key), false)
  {
    var p := slot.value.secret;
    assert Open(c, p.encryptedPrivateKey.value, before) == Plain(key);
    assert Settings.StagedMnemonic(p.encryptedMnemonic, before, c) == Carried(mnemonic);
    var (s1, m1) := Settings.VerifyCurrentPassword(s, m, ReadSlot(slot, false), c);
    WriteSealHolds(c, after, key, Carried(mnemonic));
    var (s2, m2, slot2) := Settings.ConfirmNewPassword(s1, m1.(newPassword := after, confirmNewPassword := after), slot, c, false);
    EnterPassword.UnlockHeldKey(c, oracle, slot2, after, key, mnemonic);
  }

  /**
   * A stored mnemonic that decrypts to empty text under the before password
   * is staged as empty, and the rotated bundle then stores no mnemonic at all.
   */
  lemma EmptyMnemonicDropped(
    c: Cipher, s: Auth.Session, m: Settings.ChangeModal, slot: Slot, after: string)
    requires slot.Some? && slot.value.username == KeychainUsername
    requires slot.value.secret.JsonObject?
    requires Present(slot.value.secret.encryptedPrivateKey)
    requires Present(slot.value.secret.encryptedMnemonic)
    requires m.currentPassword != ""
    requires Open(c, slot.value.secret.encryptedPrivateKey.value, m.currentPassword).Plain?
    requires c.decrypt(slot.value.secret.encryptedMnemonic.value, m.currentPassword) == Text("")
    requires Text.Utf16Length(after) >= MinPasswordLength
    ensures var (s1, m1) := Settings.VerifyCurrentPassword(s, m, ReadSlot(slot, false), c);
      && Auth.Staged(s1).1 == Some("")
      && var (_, _, slot2) := Settings.ConfirmNewPassword(s1, m1.(newPassword := after, confirmNewPassword := after), slot, c, false);
      && slot2.Some? && slot2.value.secret.JsonObject?
      && slot2.value.secret.encryptedMnemonic.None?
  {
  }
}

=== FILE: history.dfy ===
/**
 * The wallet screen's recent-activity list: explorer responses for plain
 * transactions and token transfers, typed against the wallet address,
 * merged, newest first, at most five. Also the header's shortened address.
 */
module History {
  import opened Common
  import Text
  import Networks
  import Tokens
  import Sorting

  /** How a transaction relates to the wallet. */
  datatype TxType = SelfTransfer | Send | Receive | ContractCall

  /**
   * The type of a transaction, decided in order with addresses compared
   * ignoring case: both ends are the wallet, only the sender is, only the
   * recipient is, or neither.
   */
  function Classify(from: string, to: string, wallet: string): (r: TxType)
    ensures r == SelfTransfer <==> Text.SameIgnoringCase(from, wallet) && Text.SameIgnoringCase(to, wallet)
    ensures r == Send <==> Text.SameIgnoringCase(from, wallet) && !Text.SameIgnoringCase(to, wallet)
    ensures r == Receive <==> !Text.SameIgnoringCase(from, wallet) && Text.SameIgnoringCase(to, wallet)
    ensures r == ContractCall <==> !Text.SameIgnoringCase(from, wallet) && !Text.SameIgnoringCase(to, wallet)
  {
    var w := Text.ToLower(wallet);
    var fromWallet := Text.ToLower(from) == w;
    var toWallet := Text.ToLower(to) == w;
    if fromWallet && toWallet then SelfTransfer
    else if fromWallet then Send
    else if toWallet then Receive
    else ContractCall
  }

  /** Addresses that agree ignoring case give the same type. */
  lemma ClassifyIgnoresCase(from: string, to: string, wallet: string, from': string, to': string, wallet': string)
    requires Text.SameIgnoringCase(from, from') && Text.SameIgnoringCase(to, to')
    requires Text.SameIgnoringCase(wallet, wallet')
    ensures Classify(from', to', wallet') == Classify(from, to, wallet)
  {
  }

  /** One explorer record; `tokenSymbol` is present on token transfers only. */
  datatype RawTx = RawTx(hash: string, from: string, to: string, timeStamp: int, isError: string, tokenSymbol: string)

  /** An explorer reply: `status`, `message`, and `result` when it is an array. */
  datatype Response = Response(status: string, message: string, result: Option<seq<RawTx>>)

  const NoTransactionsFound: string := "No transactions found"

  /** A listed transaction, without its display strings. */
  datatype Transaction = Transaction(
    hash: string,
    kind: TxType,
    from: string,
    to: string,
    timestamp: int,
    tokenSymbol: Option<string>,
    isError: bool)

  function Timestamp(t: Transaction): int { t.timestamp }

  /** A plain transaction; it failed when the explorer marks it `"1"`. */
  function FromNormal(tx: RawTx, wallet: string): (r: Transaction)
    ensures r.kind == Classify(tx.from, tx.to, wallet) && r.timestamp == tx.timeStamp
    ensures r.tokenSymbol.None? && (r.isError <==> tx.isError == "1")
  {
    Transaction(tx.hash, Classify(tx.from, tx.to, wallet), tx.from, tx.to, tx.timeStamp, None, tx.isError == "1")
  }

  /** A token transfer; it carries the token's symbol and is never marked failed. */
  function FromTransfer(tx: RawTx, wallet: string): (r: Transaction)
    ensures r.kind == Classify(tx.from, tx.to, wallet) && r.timestamp == tx.timeStamp
    ensures r.tokenSymbol == Some(tx.tokenSymbol) && !r.isError
  {
    Transaction(tx.hash, Classify(tx.from, tx.to, wallet), tx.from, tx.to, tx.timeStamp, Some(tx.tokenSymbol), false)
  }

  /** The decimals a transfer's amount is shown with: the listed token's, or 18 for any other symbol. */
  function TransferDecimals(symbol: string): (r: nat)
    ensures Tokens.FindBySymbol(symbol).Some? ==> r == Tokens.FindBySymbol(symbol).value.decimals
    ensures Tokens.FindBySymbol(symbol).None? ==> r == 18
  {
    match Tokens.FindBySymbol(symbol)
    case Some(t) => t.decimals
    case None => 18
  }

  /** A reply whose records are used: status `"1"` and an array result. */
  predicate Usable(resp: Response) {
    resp.status == "1" && resp.result.Some?
  }

  function MapNormal(txs: seq<RawTx>, wallet: string): (r: seq<Transaction>)
    ensures |r| == |txs| && forall i :: 0 <= i < |txs| ==> r[i] == FromNormal(txs[i], wallet)
  {
    if txs == [] then [] else [FromNormal(txs[0], wallet)] + MapNormal(txs[1..], wallet)
  }

  function MapTransfers(txs: seq<RawTx>, wallet: string): (r: seq<Transaction>)
    ensures |r| == |txs| && forall i :: 0 <= i < |txs| ==> r[i] == FromTransfer(txs[i], wallet)
  {
    if txs == [] then [] else [FromTransfer(txs[0], wallet)] + MapTransfers(txs[1..], wallet)
  }

  /** Plain transactions, then token transfers, from the usable replies only. */
  function Combined(normal: Response, transfers: Response, wallet: string): (r: seq<Transaction>)
    ensures |r| == (if Usable(normal) then |normal.result.value| else 0) + (if Usable(transfers) then |transfers.result.value| else 0)
    ensures Usable(normal) ==>
      forall i :: 0 <= i < |normal.result.value| ==> r[i] == FromNormal(normal.result.value[i], wallet)
    ensures Usable(normal) && Usable(transfers) ==>
      forall i :: 0 <= i < |transfers.result.value| ==>
        r[|normal.result.value| + i] == FromTransfer(transfers.result.value[i], wallet)
    ensures !Usable(normal) && Usable(transfers) ==>
      forall i :: 0 <= i < |transfers.result.value| ==> r[i] == FromTransfer(transfers.result.value[i], wallet)
  {
    if Usable(normal) && Usable(transfers) then
      var plain := MapNormal(normal.result.value, wallet);
      var tokens := MapTransfers(transfers.result.value, wallet);
      AppendIndex(plain, tokens);
      plain + tokens
    else if Usable(normal) then MapNormal(normal.result.value, wallet)
    else if Usable(transfers) then MapTransfers(transfers.result.value, wallet)
    else []
  }

  /** Where the parts of a concatenation sit in it. */
  lemma AppendIndex(a: seq<Transaction>, b: seq<Transaction>)
    ensures forall i :: 0 <= i < |a| ==> (a + b)[i] == a[i]
    ensures forall i :: 0 <= i < |b| ==> (a + b)[|a| + i] == b[i]
  {
  }

  /** At most this many transactions are listed. */
  const MaxListed: nat := 5

  /** Why the list could not be shown. */
  datatype HistoryError =
    | ExplorerError  // an explorer replied with an error status
    | FetchError     // a request or its JSON decoding threw

  datatype HistoryState = HistoryState(transactions: seq<Transaction>, error: Option<HistoryError>, isLoading: bool)

  /**
   * The error after a fetch that produced nothing to list: none when both
   * replies succeeded, or when either says there is nothing; otherwise an
   * error when either reply has status `"0"`.
   */
  function EmptyListError(normal: Response, transfers: Response): (r: Option<HistoryError>)
    ensures r.Some? ==> r.value == ExplorerError
    ensures r.Some? <==>
      && (normal.status == "0" || transfers.status == "0")
      && normal.message != NoTransactionsFound && transfers.message != NoTransactionsFound
  {
    if normal.status == "1" && transfers.status == "1" then None
    else if normal.message != NoTransactionsFound && transfers.message != NoTransactionsFound then
      if normal.status == "0" || transfers.status == "0" then Some(ExplorerError) else None
    else None
  }

  /**
   * `fetchTransactionHistory`. `replies` is absent when anything inside the
   * `try` throws: a request, its decoding, or the per-record mapping (a
   * `value` that `formatEther`/`formatUnits` rejects, or a missing `from`,
   * `to` or `tokenSymbol` whose `toLowerCase` fails), since one bad record
   * sends the whole fetch to the catch. Without an address or a network the list is emptied
   * and nothing else changes; otherwise loading ends, and the list is the
   * newest five of the merged records.
   */
  function FetchHistory(
    prev: HistoryState, walletAddress: Option<string>, active: Option<Networks.Network>,
    replies: Option<(Response, Response)>): (r: HistoryState)
    ensures !Present(walletAddress) || active.None? ==> r == prev.(transactions := [])
    ensures Present(walletAddress) && active.Some? ==> !r.isLoading
    ensures Present(walletAddress) && active.Some? && replies.None? ==> r == HistoryState([], Some(FetchError), false)
    ensures Present(walletAddress) && active.Some? && replies.Some? ==>
      var merged := Combined(replies.value.0, replies.value.1, walletAddress.value);
      && |r.transactions| == Min(MaxListed, |merged|)
      && Sorting.SortedBy(r.transactions, Timestamp)
      && multiset(r.transactions) <= multiset(merged)
      && (r.error.Some? <==> merged == [] && EmptyListError(replies.value.0, replies.value.1).Some?)
      && r.error == (if merged == [] then EmptyListError(replies.value.0, replies.value.1) else None)
  {
    if !Present(walletAddress) || active.None? then prev.(transactions := [])
    else
      match replies
      case None => HistoryState([], Some(FetchError), false)
      case Some(pair) =>
        var merged := Combined(pair.0, pair.1, walletAddress.value);
        var sorted := Sorting.SortDesc(merged, Timestamp);
        Sorting.SortDescCorrect(merged, Timestamp);
        var listed := Take(sorted, MaxListed);
        Sorting.PrefixKeepsLargest(sorted, MaxListed, Timestamp);
        HistoryState(listed, if listed == [] then EmptyListError(pair.0, pair.1) else None, false)
  }

  /**
   * Nothing newer is left out: every merged record that is not listed is no
   * newer than each listed one.
   */
  lemma ListedAreNewest(
    prev: HistoryState, walletAddress: Option<string>, active: Option<Networks.Network>,
    normal: Response, transfers: Response)
    requires Present(walletAddress) && active.Some?
    ensures var merged := Combined(normal, transfers, walletAddress.value);
      var listed := FetchHistory(prev, walletAddress, active, Some((normal, transfers))).transactions;
      forall x, y :: x in multiset(merged) - multiset(listed) && y in listed ==> x.timestamp <= y.timestamp
  {
    var merged := Combined(normal, transfers, walletAddress.value);
    var sorted := Sorting.SortDesc(merged, Timestamp);
    Sorting.SortDescCorrect(merged, Timestamp);
    Sorting.PrefixKeepsLargest(sorted, MaxListed, Timestamp);
  }

  /**
   * The header's `shortAddress`: the first six characters, `...`, and the
   * last four; absent without an address.
   */
  function ShortAddress(walletAddress: Option<string>): (r: Option<string>)
    ensures r.Some? <==> Present(walletAddress)
    ensures Present(walletAddress) && |walletAddress.value| >= 6 ==>
      var a := walletAddress.value;
      r.value == a[..6] + "..." + a[|a| - 4..]
  {
    if !Present(walletAddress) then None
    else
      var a := walletAddress.value;
      Some(Text.Substring(a, 0, 6) + "..." + Text.Substring(a, |a| - 4, |a|))
  }

  /** A full 42-character address shortens to 13 characters that keep both ends. */
  lemma ShortAddressOfFullAddress(a: string)
    requires |a| == 42
    ensures var r := ShortAddress(Some(a)).value;
      |r| == 13 && r[..6] == a[..6] && r[9..] == a[38..]
  {
  }
}

=== FILE: import_wallet.dfy ===
/**
 * The import screen: a twelve-word phrase or a private key is trimmed,
 * checked, and handed on to the set-password screen.
 */
module ImportWallet {
  import opened Common
  import Text
  import Vault
  import SetPassword

  datatype ImportType = MnemonicImport | PrivateKeyImport

  datatype ImportError =
    | PhraseRequired   // blank input in phrase mode
    | KeyRequired      // blank input in key mode
    | NotTwelveWords   // the trimmed phrase does not split into twelve words
    | InvalidPhrase    // ethers cannot derive a wallet from the phrase
    | InvalidKey       // ethers rejects the private key

  /** The progress text shown while loading, one per import type. */
  datatype LoadingMessage = VerifyingPhrase | VerifyingKey

  datatype ImportState = ImportState(
    importType: ImportType,
    input: string,
    error: Option<ImportError>,
    isLoading: bool,
    loadingMessage: Option<LoadingMessage>)

  const Initial: ImportState := ImportState(MnemonicImport, "", None, false, None)

  /** The number of words a phrase must have. */
  const PhraseWords: nat := 12

  /** The screen after the handler, and the set-password parameters it navigates with, if any. */
  datatype Imported = Imported(state: ImportState, next: Option<SetPassword.Params>)

  /** A handler exit that shows `e` and stops loading. */
  function Fail(st: ImportState, e: ImportError): ImportState {
    st.(error := Some(e), isLoading := false, loadingMessage := None)
  }

  /**
   * `handleImport`, with the deferred frame run immediately: blank input,
   * a phrase of the wrong length and an input ethers rejects each stop with
   * a mode-specific error and no navigation; an accepted input navigates with
   * the trimmed text and leaves the loading indicator on.
   */
  function HandleImport(st: ImportState, oracle: Vault.KeyOracle): (r: Imported)
    ensures var t := Text.Trim(st.input);
      t == "" ==> r == Imported(Fail(st, if st.importType == MnemonicImport then PhraseRequired else KeyRequired), None)
    ensures r.next.Some? <==> r.state.error.None?
    ensures r.next.None? ==> !r.state.isLoading && r.state.loadingMessage.None?
    ensures r.next.Some? ==> r.state.isLoading && r.state.loadingMessage.Some?
    ensures r.state.importType == st.importType && r.state.input == st.input
    // Phrase mode: exactly twelve words, and ethers must derive a key.
    ensures var t := Text.Trim(st.input);
      st.importType == MnemonicImport && t != "" && |Text.Split(t, ' ')| != PhraseWords ==>
        r.state.error == Some(NotTwelveWords) && r.next.None?
    ensures var t := Text.Trim(st.input);
      st.importType == MnemonicImport ==>
        (r.next.Some? <==> t != "" && |Text.Split(t, ' ')| == PhraseWords && oracle.derive(t).Some?)
    ensures var t := Text.Trim(st.input);
      st.importType == MnemonicImport && r.next.Some? ==>
        r.next.value == SetPassword.Params(Some(t), oracle.derive(t))
    ensures var t := Text.Trim(st.input);
      st.importType == MnemonicImport && t != "" && |Text.Split(t, ' ')| == PhraseWords && oracle.derive(t).None? ==>
        r.state.error == Some(InvalidPhrase)
    // Key mode: ethers must accept the key; no phrase is passed on.
    ensures var t := Text.Trim(st.input);
      st.importType == PrivateKeyImport ==>
        (r.next.Some? <==> t != "" && oracle.valid(t))
    ensures var t := Text.Trim(st.input);
      st.importType == PrivateKeyImport && r.next.Some? ==> r.next.value == SetPassword.Params(None, Some(t))
    ensures var t := Text.Trim(st.input);
      st.importType == PrivateKeyImport && t != "" && !oracle.valid(t) ==> r.state.error == Some(InvalidKey)
  {
    var loading := st.(error := None, isLoading := true,
                       loadingMessage := Some(if st.importType == MnemonicImport then VerifyingPhrase else VerifyingKey));
    var t := Text.Trim(st.input);
    if t == "" then
      Imported(Fail(loading, if st.importType == MnemonicImport then PhraseRequired else KeyRequired), None)
    else if st.importType == MnemonicImport then
      if |Text.Split(t, ' ')| != PhraseWords then Imported(Fail(loading, NotTwelveWords), None)
      else
        match oracle.derive(t)
        case Some(key) => Imported(loading, Some(SetPassword.Params(Some(t), Some(key))))
        case None => Imported(Fail(loading, InvalidPhrase), None)
    else if oracle.valid(t) then Imported(loading, Some(SetPassword.Params(None, Some(t))))
    else Imported(Fail(loading, InvalidKey), None)
  }

  /** The import-type buttons: switch mode and clear both the error and the input. */
  function SwitchImportType(st: ImportState, t: ImportType): (r: ImportState)
    ensures r.importType == t && r.error.None? && r.input == ""
    ensures r.isLoading == st.isLoading && r.loadingMessage == st.loadingMessage
  {
    st.(importType := t, error := None, input := "")
  }

  /**
   * An accepted phrase is handed on without surrounding whitespace, as twelve
   * space-separated words that rejoin to exactly the phrase passed on.
   */
  lemma AcceptedPhraseShape(st: ImportState, oracle: Vault.KeyOracle)
    requires st.importType == MnemonicImport
    requires HandleImport(st, oracle).next.Some?
    ensures var m := HandleImport(st, oracle).next.value.mnemonic;
      && m.Some? && m.value != ""
      && !Text.IsWhitespace(m.value[0]) && !Text.IsWhitespace(m.value[|m.value| - 1])
      && |Text.Split(m.value, ' ')| == PhraseWords
      && Text.Join(Text.Split(m.value, ' '), ' ') == m.value
  {
    var m := HandleImport(st, oracle).next.value.mnemonic.value;
    Text.JoinSplit(m, ' ');
  }

  /**
   * Whatever is accepted here, the set-password screen goes on to seal
   * exactly the key the import produced: the derived key for a phrase, the
   * trimmed key itself otherwise.
   */
  lemma ImportedKeyIsSealed(st: ImportState, oracle: Vault.KeyOracle)
    requires Vault.Coherent(oracle)
    requires HandleImport(st, oracle).next.Some?
    ensures var p := HandleImport(st, oracle).next.value;
      && p.privateKey.Some?
      && SetPassword.ChooseKey(p, oracle) == SetPassword.Chosen(p.privateKey.value)
  {
  }
}

=== FILE: networks.dfy ===
/** The two Avalanche C-Chain networks the wallet can talk to, and the lookup by name. */
module Networks {
  import opened Common

  datatype Network = Network(
    name: string,
    rpcUrl: string,
    chainId: nat,
    explorerUrl: string,
    currencySymbol: string)

  const MainnetRpcUrl: string := "https://api.avax.network/ext/bc/C/rpc"
  const FujiRpcUrl: string := "https://api.avax-test.network/ext/bc/C/rpc"

  const Mainnet: Network := Network(
    "Avalanche Mainnet", MainnetRpcUrl, 43114, "https://snowtrace.io", "AVAX")

  const Fuji: Network := Network(
    "Avalanche Fuji Testnet", FujiRpcUrl, 43113, "https://testnet.snowtrace.io", "AVAX")

  /** `SUPPORTED_NETWORKS`, keyed by each network's own name. */
  const SupportedNetworks: map<string, Network> := map[Mainnet.name := Mainnet, Fuji.name := Fuji]

  /** `SUPPORTED_NETWORKS[name]`, undefined for any other name. */
  function Lookup(name: string): (r: Option<Network>)
    ensures r.Some? <==> name == Mainnet.name || name == Fuji.name
    ensures r.Some? ==> r.value.name == name && r.value in {Mainnet, Fuji}
  {
    if name in SupportedNetworks then Some(SupportedNetworks[name]) else None
  }

  /**
   * The network a screen works against: the session's network name, or the
   * Mainnet name when it is unset or empty, resolved through the table with
   * Mainnet as the fallback for an unknown name.
   */
  function Active(sessionNetwork: Option<string>): (r: Network)
    ensures r in {Mainnet, Fuji}
    ensures !Present(sessionNetwork) ==> r == Mainnet
    ensures Present(sessionNetwork) && sessionNetwork.value == Fuji.name ==> r == Fuji
    ensures Present(sessionNetwork) && sessionNetwork.value != Fuji.name ==> r == Mainnet
  {
    var name := if Present(sessionNetwork) then sessionNetwork.value else Mainnet.name;
    Lookup(name).GetOr(Mainnet)
  }

  /** Every entry of the table is the network whose name is its key; there are exactly two. */
  lemma TableFacts()
    ensures SupportedNetworks.Keys == {"Avalanche Mainnet", "Avalanche Fuji Testnet"}
    ensures forall n :: n in SupportedNetworks ==> SupportedNetworks[n].name == n
    ensures Mainnet.chainId != Fuji.chainId
    ensures Mainnet.currencySymbol == "AVAX" && Fuji.currencySymbol == "AVAX"
    ensures Mainnet.rpcUrl != Fuji.rpcUrl
  {
  }
}

=== FILE: quiz.dfy ===
/**
 * The recovery-phrase quiz: a shuffled pool of the phrase's words plus
 * decoys, three target positions in ascending order, and the step machine
 * that walks through them.
 */
module MnemonicQuiz {
  import opened Common
  import Text
  import Shuffle
  import Sorting
  import SetPassword

  const DecoyWords: seq<string> :=
    ["apple", "banana", "car", "dog", "house", "tree", "river", "mountain", "book", "phone"]

  /** The pool is topped up with decoys towards this many buttons. */
  const PoolTarget: nat := 18

  /** How many phrase positions the user must confirm. */
  const TargetCount: nat := 3

  /** `mnemonic.split(' ')`. */
  function Words(mnemonic: string): (r: seq<string>)
    ensures |r| >= 1
  {
    Text.Split(mnemonic, ' ')
  }

  /** `decoyWords.slice(0, Math.max(0, 18 - n))`. */
  function Decoys(n: nat): (r: seq<string>)
    ensures |r| == Min(|DecoyWords|, if n <= PoolTarget then PoolTarget - n else 0)
    ensures forall i :: 0 <= i < |r| ==> r[i] == DecoyWords[i]
  {
    Take(DecoyWords, if n <= PoolTarget then PoolTarget - n else 0)
  }

  /** The words before shuffling: the phrase, then the decoys. */
  function Unshuffled(words: seq<string>): seq<string> {
    words + Decoys(|words|)
  }

  /**
   * The effect's pool: a shuffle of the phrase's words followed by up to ten
   * decoys, eighteen buttons in all for a twelve-word phrase.
   */
  method BuildPool(mnemonic: string, draws: seq<int>) returns (pool: seq<string>)
    requires Shuffle.ValidDraws(|Unshuffled(Words(mnemonic))|, draws)
    ensures multiset(pool) == multiset(Words(mnemonic)) + multiset(Decoys(|Words(mnemonic)|))
    ensures |pool| == |Words(mnemonic)| + Min(10, if |Words(mnemonic)| <= 18 then 18 - |Words(mnemonic)| else 0)
    ensures |Words(mnemonic)| == 12 ==> |pool| == 18
  {
    var words := Words(mnemonic);
    pool := Shuffle.ShuffleArray(Unshuffled(words), draws);
  }

  /** `[...Array(n).keys()]`. */
  function Range(n: nat): (r: seq<int>)
    ensures |r| == n
    ensures forall i :: 0 <= i < n ==> r[i] == i
  {
    seq(n, i => i)
  }

  /** Each of `0 .. n-1` occurs in `Range(n)` exactly once, and nothing else occurs. */
  lemma {:induction false} RangeCounts(n: nat, x: int)
    ensures multiset(Range(n))[x] == if 0 <= x < n then 1 else 0
  {
    if n > 0 {
      RangeCounts(n - 1, x);
      assert Range(n) == Range(n - 1) + [n - 1];
    }
  }

  /** A prefix holds no more copies of anything than the whole sequence. */
  lemma TakeCounts<T>(s: seq<T>, k: nat, x: T)
    ensures multiset(Take(s, k))[x] <= multiset(s)[x]
  {
    if k <= |s| {
      assert s == s[..k] + s[k..];
    }
  }

  /** A sequence in which nothing occurs twice has no repeated positions. */
  lemma NoRepeats<T>(s: seq<T>, i: nat, j: nat)
    requires i < j < |s|
    requires multiset(s)[s[i]] <= 1
    ensures s[i] != s[j]
  {
    var front, back := s[..j], s[j..];
    assert s == front + back;
    assert front[i] == s[i] && back[0] == s[j];
    assert multiset(s)[s[j]] == multiset(front)[s[j]] + multiset(back)[s[j]];
  }

  /** No value occurs more than once, and only positions below `n` occur. */
  ghost predicate PositionsBelow(m: multiset<int>, n: nat) {
    forall x :: m[x] <= if 0 <= x < n then 1 else 0
  }

  /** Ascending and free of repeats means strictly ascending. */
  lemma StrictlyAscending(order: seq<int>, n: nat)
    requires Sorting.SortedBy(order, Negate)
    requires PositionsBelow(multiset(order), n)
    ensures forall i :: 0 <= i < |order| ==> 0 <= order[i] < n
    ensures forall i, j :: 0 <= i < j < |order| ==> order[i] < order[j]
  {
    forall i | 0 <= i < |order|
      ensures 0 <= order[i] < n
    {
      assert order[i] in multiset(order);
    }
    forall i, j | 0 <= i < j < |order|
      ensures order[i] < order[j]
    {
      assert Negate(order[i]) >= Negate(order[j]);
      NoRepeats(order, i, j);
    }
  }

  /** The first positions of a shuffled `Range(n)` are distinct positions below `n`. */
  lemma ShuffledPrefix(n: nat, shuffled: seq<int>, k: nat)
    requires multiset(shuffled) == multiset(Range(n))
    ensures PositionsBelow(multiset(Take(shuffled, k)), n)
  {
    forall x
      ensures multiset(Take(shuffled, k))[x] <= if 0 <= x < n then 1 else 0
    {
      TakeCounts(shuffled, k, x);
      RangeCounts(n, x);
    }
  }

  /** Ascending order, as `sort((a, b) => a - b)` produces. */
  function Negate(x: int): int { -x }

  /**
   * The effect's selection order: shuffle the positions of the phrase, keep
   * the first three, sort them ascending. The result holds `min(3, n)`
   * distinct positions of the phrase in strictly increasing order.
   */
  method ChooseTargets(n: nat, draws: seq<int>) returns (order: seq<int>)
    requires Shuffle.ValidDraws(n, draws)
    ensures |order| == Min(TargetCount, n)
    ensures forall i :: 0 <= i < |order| ==> 0 <= order[i] < n
    ensures forall i, j :: 0 <= i < j < |order| ==> order[i] < order[j]
  {
    var shuffled := Shuffle.ShuffleArray(Range(n), draws);
    var chosen := Take(shuffled, TargetCount);
    order := Sorting.SortDesc(chosen, Negate);
    Sorting.SortDescCorrect(chosen, Negate);
    ShuffledPrefix(n, shuffled, TargetCount);
    StrictlyAscending(order, n);
  }

  datatype QuizError = WrongWord

  /** The screen's quiz state. */
  datatype Quiz = Quiz(step: nat, selected: seq<string>, error: Option<QuizError>)

  const Start: Quiz := Quiz(0, [], None)

  /**
   * The word the current step asks for; absent when the step or the chosen
   * position falls outside the arrays (JavaScript's `undefined`).
   */
  function Target(words: seq<string>, order: seq<int>, step: nat): (r: Option<string>)
    ensures r.Some? <==> step < |order| && 0 <= order[step] < |words|
    ensures r.Some? ==> r.value == words[order[step]]
  {
    if step < |order| && 0 <= order[step] < |words| then Some(words[order[step]]) else None
  }

  /** The quiz after a tap, and where the app navigates, if anywhere. */
  datatype Tapped = Tapped(quiz: Quiz, next: Option<SetPassword.Params>)

  /**
   * `handleWordSelection`: clear the error; a correct word is appended and
   * either advances the step or, at the last step, completes and hands the
   * phrase on; a wrong word only sets the error.
   */
  function SelectWord(mnemonic: string, order: seq<int>, q: Quiz, word: string): (r: Tapped)
    ensures r.quiz.error.None? <==> Target(Words(mnemonic), order, q.step) == Some(word)
    ensures Target(Words(mnemonic), order, q.step) != Some(word) ==>
      r == Tapped(q.(error := Some(WrongWord)), None)
    ensures Target(Words(mnemonic), order, q.step) == Some(word) ==>
      r.quiz.selected == q.selected + [word]
    ensures r.next.Some? <==> Target(Words(mnemonic), order, q.step) == Some(word) && q.step + 1 >= |order|
    ensures r.next.Some? ==> r.next.value == SetPassword.Params(Some(mnemonic), None) && r.quiz.step == q.step
    ensures r.next.None? && r.quiz.error.None? ==> r.quiz.step == q.step + 1
  {
    var cleared := q.(error := None);
    var target := Target(Words(mnemonic), order, q.step);
    if target == Some(word) then
      var picked := cleared.(selected := q.selected + [word]);
      if q.step < |order| - 1 then Tapped(picked.(step := q.step + 1), None)
      else Tapped(picked, Some(SetPassword.Params(Some(mnemonic), None)))
    else
      Tapped(cleared.(error := Some(WrongWord)), None)
  }

  /**
   * Before completion, one word has been collected per finished step, and
   * each is the phrase word at that step's target position.
   */
  ghost predicate Progress(words: seq<string>, order: seq<int>, q: Quiz) {
    && q.step < |order|
    && |q.selected| == q.step
    && forall i :: 0 <= i < q.step ==> 0 <= order[i] < |words| && q.selected[i] == words[order[i]]
  }

  /** The quiz starts in progress whenever there is a target to ask for. */
  lemma StartInProgress(words: seq<string>, order: seq<int>)
    requires |order| > 0
    ensures Progress(words, order, Start)
  {
  }

  /**
   * A tap that does not complete keeps the quiz in progress; a tap that
   * completes has collected exactly the phrase words at the target
   * positions, in order.
   */
  lemma {:induction false} SelectWordKeepsProgress(mnemonic: string, order: seq<int>, q: Quiz, word: string)
    requires Progress(Words(mnemonic), order, q)
    ensures var r := SelectWord(mnemonic, order, q, word);
      r.next.None? ==> Progress(Words(mnemonic), order, r.quiz)
    ensures var r := SelectWord(mnemonic, order, q, word);
      r.next.Some? ==>
        && |r.quiz.selected| == |order|
        && forall i :: 0 <= i < |order| ==> r.quiz.selected[i] == Words(mnemonic)[order[i]]
  {
    var words := Words(mnemonic);
    var r := SelectWord(mnemonic, order, q, word);
    if Target(words, order, q.step) == Some(word) {
      assert r.quiz.selected[q.step] == words[order[q.step]];
      forall i | 0 <= i < q.step
        ensures r.quiz.selected[i] == words[order[i]]
      {
        assert r.quiz.selected[i] == q.selected[i];
      }
    }
  }

  /**
   * Picking the requested words one after another completes the quiz: from
   * any point in progress, the remaining correct taps navigate on.
   */
  lemma {:induction false} CorrectPicksComplete(mnemonic: string, order: seq<int>, q: Quiz)
    requires Progress(Words(mnemonic), order, q)
    requires forall i :: 0 <= i < |order| ==> 0 <= order[i] < |Words(mnemonic)|
    ensures Finish(mnemonic, order, q).next == Some(SetPassword.Params(Some(mnemonic), None))
    decreases |order| - q.step
  {
    var r := SelectWord(mnemonic, order, q, Words(mnemonic)[order[q.step]]);
    SelectWordKeepsProgress(mnemonic, order, q, Words(mnemonic)[order[q.step]]);
    if r.next.None? {
      CorrectPicksComplete(mnemonic, order, r.quiz);
    }
  }

  /** Tap the requested word at every remaining step. */
  function Finish(mnemonic: string, order: seq<int>, q: Quiz): Tapped
    requires Progress(Words(mnemonic), order, q)
    requires forall i :: 0 <= i < |order| ==> 0 <= order[i] < |Words(mnemonic)|
    decreases |order| - q.step
  {
    var r := SelectWord(mnemonic, order, q, Words(mnemonic)[order[q.step]]);
    SelectWordKeepsProgress(mnemonic, order, q, Words(mnemonic)[order[q.step]]);
    if r.next.None? then Finish(mnemonic, order, r.quiz) else r
  }
}

=== FILE: set_password.dfy ===
/**
 * The set-password screen: validate the new password, choose where the
 * private key comes from, seal the bundle and replace the stored one.
 */
module SetPassword {
  import opened Common
  import opened Vault
  import Text

  /** The route parameters: a mnemonic, a private key, or both. */
  datatype Params = Params(mnemonic: Option<string>, privateKey: Option<string>)

  datatype SetupError =
    | PasswordTooShort   // fewer than six UTF-16 code units
    | PasswordMismatch   // confirmation differs
    | InvalidPrivateKey  // a lone private key that ethers rejects
    | NoWalletData       // neither a mnemonic nor a key arrived
    | SetupFailed        // a derivation or store operation threw

  /** Where the private key to seal comes from. */
  datatype KeyChoice = Chosen(key: string) | Rejected(error: SetupError)

  /**
   * Private-key source selection: a supplied key wins when a mnemonic came
   * with it; a lone mnemonic is derived from; a lone key is validated first;
   * with neither there is nothing to store.
   */
  function ChooseKey(params: Params, oracle: KeyOracle): (r: KeyChoice)
    ensures Present(params.mnemonic) && Present(params.privateKey) ==> r == Chosen(params.privateKey.value)
    ensures Present(params.mnemonic) && !Present(params.privateKey) ==>
      r == (match oracle.derive(params.mnemonic.value)
            case Some(k) => Chosen(k)
            case None => Rejected(SetupFailed))
    ensures !Present(params.mnemonic) && Present(params.privateKey) ==>
      r == (if oracle.valid(params.privateKey.value) then Chosen(params.privateKey.value) else Rejected(InvalidPrivateKey))
    ensures !Present(params.mnemonic) && !Present(params.privateKey) ==> r == Rejected(NoWalletData)
  {
    if Present(params.mnemonic) && Present(params.privateKey) then Chosen(params.privateKey.value)
    else if Present(params.mnemonic) then
      match oracle.derive(params.mnemonic.value)
      case Some(k) => Chosen(k)
      case None => Rejected(SetupFailed)
    else if Present(params.privateKey) then
      if oracle.valid(params.privateKey.value) then Chosen(params.privateKey.value) else Rejected(InvalidPrivateKey)
    else Rejected(NoWalletData)
  }

  /**
   * What the handler leaves behind: the error shown, the slot, the loading
   * flag, and the key the success alert passes to `login`.
   */
  datatype Outcome = Outcome(error: Option<SetupError>, slot: Slot, isLoading: bool, loginKey: Option<string>)

  /**
   * `handleSetPassword`. The store is reset before the bundle is written, so
   * a reset that succeeds followed by a write that throws leaves the slot
   * empty.
   */
  function HandleSetPassword(
    params: Params, password: string, confirmation: string, wasLoading: bool,
    slot: Slot, c: Cipher, oracle: KeyOracle, resetFails: bool, writeFails: bool): (r: Outcome)
    // Password rules come first and store nothing.
    ensures Text.Utf16Length(password) < MinPasswordLength ==>
      r == Outcome(Some(PasswordTooShort), slot, wasLoading, None)
    ensures Text.Utf16Length(password) >= MinPasswordLength && password != confirmation ==>
      r == Outcome(Some(PasswordMismatch), slot, wasLoading, None)
    // Once past them the loading flag always ends false.
    ensures Text.Utf16Length(password) >= MinPasswordLength && password == confirmation ==> !r.isLoading
    ensures !wasLoading ==> !r.isLoading
    // A rejected key source stores nothing.
    ensures ChooseKey(params, oracle).Rejected? && password == confirmation ==> r.slot == slot && r.loginKey.None?
    // Success and failure are exclusive; success always logs in with the chosen key.
    ensures r.loginKey.Some? <==> r.error.None?
    ensures r.loginKey.Some? ==> ChooseKey(params, oracle) == Chosen(r.loginKey.value)
    ensures r.loginKey.Some? ==> r.slot == Write(Seal(c, password, r.loginKey.value, params.mnemonic))
    ensures r.loginKey.Some? <==>
      Text.Utf16Length(password) >= MinPasswordLength && password == confirmation &&
      ChooseKey(params, oracle).Chosen? && !resetFails && !writeFails
    // Past the password rules: a rejected source shows its own error, and a
    // failing reset keeps the stored record.
    ensures Text.Utf16Length(password) >= MinPasswordLength && password == confirmation && ChooseKey(params, oracle).Rejected? ==>
      r == Outcome(Some(ChooseKey(params, oracle).error), slot, false, None)
    ensures Text.Utf16Length(password) >= MinPasswordLength && password == confirmation && ChooseKey(params, oracle).Chosen? && resetFails ==>
      r == Outcome(Some(SetupFailed), slot, false, None)
    ensures Text.Utf16Length(password) >= MinPasswordLength && password == confirmation && ChooseKey(params, oracle).Chosen? &&
            !resetFails && writeFails ==>
      r == Outcome(Some(SetupFailed), None, false, None)
    // A store failure after a successful reset loses the old record.
    ensures r.error == Some(SetupFailed) && ChooseKey(params, oracle).Chosen? && !resetFails ==> r.slot.None?
  {
    if Text.Utf16Length(password) < MinPasswordLength then Outcome(Some(PasswordTooShort), slot, wasLoading, None)
    else if password != confirmation then Outcome(Some(PasswordMismatch), slot, wasLoading, None)
    else
      match ChooseKey(params, oracle)
      case Rejected(e) => Outcome(Some(e), slot, false, None)
      case Chosen(key) =>
        if resetFails then Outcome(Some(SetupFailed), slot, false, None)
        else if writeFails then Outcome(Some(SetupFailed), None, false, None)
        else Outcome(None, Write(Seal(c, password, key, params.mnemonic)), false, Some(key))
  }

  /**
   * The length rule counts UTF-16 code units as `password.length` does:
   * three emoji are three characters but six units, so they pass it.
   */
  lemma EmojiPasswordPassesLengthRule(
    params: Params, slot: Slot, c: Cipher, oracle: KeyOracle, resetFails: bool, writeFails: bool)
    ensures var pw := "\U{1F600}\U{1F600}\U{1F600}";
      var r := HandleSetPassword(params, pw, pw, false, slot, c, oracle, resetFails, writeFails);
      r.error != Some(PasswordTooShort) && r.error != Some(PasswordMismatch)
  {
    Text.ThreeEmojiAreSixUnits();
  }

  /**
   * After a successful setup, the stored private key decrypts under the same
   * password to exactly the key passed to `login`, and the mnemonic is stored
   * exactly when one was given.
   */
  lemma SetupStoresLoginKey(
    params: Params, password: string, confirmation: string, wasLoading: bool,
    slot: Slot, c: Cipher, oracle: KeyOracle, resetFails: bool, writeFails: bool)
    requires Sound(c)
    ensures var r := HandleSetPassword(params, password, confirmation, wasLoading, slot, c, oracle, resetFails, writeFails);
      r.loginKey.Some? ==> Holds(c, r.slot, password, r.loginKey.value, params.mnemonic)
  {
    var r := HandleSetPassword(params, password, confirmation, wasLoading, slot, c, oracle, resetFails, writeFails);
    if r.loginKey.Some? {
      WriteSealHolds(c, password, r.loginKey.value, params.mnemonic);
    }
  }

  /** With a coherent oracle, a successful setup logs in with a key ethers accepts. */
  lemma SetupKeyIsValid(
    params: Params, password: string, confirmation: string, wasLoading: bool,
    slot: Slot, c: Cipher, oracle: KeyOracle, resetFails: bool, writeFails: bool)
    requires Coherent(oracle)
    requires Present(params.mnemonic) && Present(params.privateKey) ==> oracle.valid(params.privateKey.value)
    ensures var r := HandleSetPassword(params, password, confirmation, wasLoading, slot, c, oracle, resetFails, writeFails);
      r.loginKey.Some? ==> oracle.valid(r.loginKey.value) && r.loginKey.value != ""
  {
  }
}

=== FILE: settings.dfy ===
/**
 * The settings screen's credential handlers: revealing the stored private
 * key or mnemonic, the two-step password change, and network selection.
 */
module Settings {
  import opened Common
  import opened Vault
  import Text
  import opened Auth

  // ---------------------------------------------------------------------------
  // Revealing a stored secret
  // ---------------------------------------------------------------------------

  datatype InfoKind = PrivateKeyInfo | MnemonicInfo

  datatype InfoError =
    | PasswordRequired  // the password field is empty
    | WrongPassword     // the field decrypts to empty text
    | DecryptFailed     // decoding throws
    | NoMnemonic        // the wallet was stored without a mnemonic
    | NothingToShow     // no kind selected, or the requested field is absent
    | NoWalletData      // no record, a foreign username, or an empty secret
    | RetrieveFailed    // the read, the parse or a field access throws

  /** The reveal dialog: what is asked for, the password typed, what is shown, the error. */
  datatype InfoModal = InfoModal(kind: Option<InfoKind>, password: string, retrieved: Option<string>, error: Option<InfoError>)

  /** A record the settings handlers accept: the fixed username and a non-empty secret. */
  predicate IsWalletRecord(read: Read) {
    read.Found? && read.entry.username == KeychainUsername && read.entry.secret != Blank
  }

  /** Which stored ciphertext a reveal of `kind` opens, if the bundle has it. */
  function Field(kind: InfoKind, p: Payload): Option<string>
    requires p.JsonObject?
  {
    match kind
    case PrivateKeyInfo => p.encryptedPrivateKey
    case MnemonicInfo => p.encryptedMnemonic
  }

  /** The text revealed, or why nothing is. */
  datatype Revealed = Shown(text: string) | Refused(error: InfoError)

  function Reveal(kind: Option<InfoKind>, read: Read, password: string, c: Cipher): (r: Revealed)
    ensures r.Shown? ==>
      && IsWalletRecord(read) && read.entry.secret.JsonObject? && kind.Some?
      && Present(Field(kind.value, read.entry.secret))
      && c.decrypt(Field(kind.value, read.entry.secret).value, password) == Text(r.text)
      && r.text != ""
    ensures r == Refused(WrongPassword) ==>
      && IsWalletRecord(read) && read.entry.secret.JsonObject? && kind.Some?
      && Present(Field(kind.value, read.entry.secret))
      && c.decrypt(Field(kind.value, read.entry.secret).value, password) == Text("")
    ensures (IsWalletRecord(read) && read.entry.secret.JsonObject? && kind == Some(MnemonicInfo) &&
             !Present(read.entry.secret.encryptedMnemonic)) ==> r == Refused(NoMnemonic)
    ensures !read.ReadFailed? && !IsWalletRecord(read) ==> r == Refused(NoWalletData)
    ensures read.ReadFailed? ==> r == Refused(RetrieveFailed)
    ensures IsWalletRecord(read) && (read.entry.secret.Unparsable? || (read.entry.secret.JsonNull? && kind.Some?)) ==>
      r == Refused(RetrieveFailed)
    ensures IsWalletRecord(read) && read.entry.secret.JsonNull? && kind.None? ==> r == Refused(NothingToShow)
    ensures IsWalletRecord(read) && read.entry.secret.JsonObject? &&
            (kind.None? || (kind == Some(PrivateKeyInfo) && !Present(read.entry.secret.encryptedPrivateKey))) ==>
      r == Refused(NothingToShow)
    ensures IsWalletRecord(read) && read.entry.secret.JsonObject? && kind.Some?
            && Present(Field(kind.value, read.entry.secret)) ==>
      var ct := Field(kind.value, read.entry.secret).value;
      && (c.decrypt(ct, password) == Text("") ==> r == Refused(WrongPassword))
      && (c.decrypt(ct, password).Malformed? ==> r == Refused(DecryptFailed))
      && (c.decrypt(ct, password).Text? && c.decrypt(ct, password).text != "" ==>
            r == Shown(c.decrypt(ct, password).text))
  {
    match read
    case ReadFailed => Refused(RetrieveFailed)
    case Absent => Refused(NoWalletData)
    case Found(entry) =>
      if entry.username != KeychainUsername || entry.secret == Blank then Refused(NoWalletData)
      else
        match entry.secret
        case Unparsable => Refused(RetrieveFailed)
        case JsonNull =>
          // Reading a field of `null` throws, unless no kind is selected and no field is read.
          if kind.None? then Refused(NothingToShow) else Refused(RetrieveFailed)
        case JsonObject(pk, mn) =>
          if kind == Some(PrivateKeyInfo) && Present(pk) then OpenField(pk.value, password, c)
          else if kind == Some(MnemonicInfo) then
            if Present(mn) then OpenField(mn.value, password, c) else Refused(NoMnemonic)
          else Refused(NothingToShow)
  }

  function OpenField(ct: string, password: string, c: Cipher): Revealed {
    match Open(c, ct, password)
    case Plain(t) => Shown(t)
    case Empty => Refused(WrongPassword)
    case Undecodable => Refused(DecryptFailed)
  }

  /**
   * `handleRetrieveInfo`: an empty password only sets the error (whatever was
   * shown stays shown); otherwise the dialog shows exactly what `Reveal`
   * yields and nothing else.
   */
  function RetrieveInfo(m: InfoModal, read: Read, c: Cipher): (r: InfoModal)
    ensures r.kind == m.kind && r.password == m.password
    ensures m.password == "" ==> r.retrieved == m.retrieved && r.error == Some(PasswordRequired)
    ensures m.password != "" ==> (r.retrieved.Some? <==> Reveal(m.kind, read, m.password, c).Shown?)
    ensures m.password != "" && r.retrieved.Some? ==> r.retrieved.value == Reveal(m.kind, read, m.password, c).text
    ensures m.password != "" ==> (r.retrieved.Some? <==> r.error.None?)
    ensures m.password != "" && Reveal(m.kind, read, m.password, c).Refused? ==>
      r.error == Some(Reveal(m.kind, read, m.password, c).error)
  {
    if m.password == "" then m.(error := Some(PasswordRequired))
    else
      match Reveal(m.kind, read, m.password, c)
      case Shown(t) => m.(retrieved := Some(t), error := None)
      case Refused(e) => m.(retrieved := None, error := Some(e))
  }

  /** `openInfoModal`: a fresh dialog for `kind`. */
  function OpenInfoModal(kind: InfoKind): (r: InfoModal)
    ensures r.kind == Some(kind) && r.password == "" && r.retrieved.None? && r.error.None?
  {
    InfoModal(Some(kind), "", None, None)
  }

  /**
   * A slot holding a key and mnemonic under `password` reveals the key, and
   * reveals the mnemonic when one was stored or refuses with `NoMnemonic`.
   */
  lemma RevealHeld(c: Cipher, slot: Slot, password: string, key: string, mnemonic: Option<string>)
    requires Holds(c, slot, password, key, mnemonic) && key != ""
    ensures Reveal(Some(PrivateKeyInfo), ReadSlot(slot, false), password, c) == Shown(key)
    ensures Present(mnemonic) ==> Reveal(Some(MnemonicInfo), ReadSlot(slot, false), password, c) == Shown(mnemonic.value)
    ensures !Present(mnemonic) ==> Reveal(Some(MnemonicInfo), ReadSlot(slot, false), password, c) == Refused(NoMnemonic)
  {
    var p := slot.value.secret;
    assert Open(c, p.encryptedPrivateKey.value, password) == Plain(key);
    if Present(mnemonic) {
      assert Open(c, p.encryptedMnemonic.value, password) == Plain(mnemonic.value);
    }
  }

  // ---------------------------------------------------------------------------
  // Two-step password change
  // ---------------------------------------------------------------------------

  datatype ChangeError =
    | CurrentPasswordRequired
    | WrongCurrentPassword    // the key decrypts to empty text
    | CurrentDecryptFailed    // decoding the key throws
    | NoEncryptedKey
    | NoStoredWallet          // no record, a foreign username, or an empty secret
    | VerifyFailed            // the read, the parse or a field access throws
    | NewPasswordTooShort     // fewer than six UTF-16 code units
    | NewPasswordMismatch
    | StagingLost             // step 2 found no staged key
    | UpdateFailed            // the store write throws

  /** The password-change dialog. `step` is 1 (verify current) or 2 (choose new). */
  datatype ChangeModal = ChangeModal(
    visible: bool,
    step: nat,
    currentPassword: string,
    newPassword: string,
    confirmNewPassword: string,
    error: Option<ChangeError>)

  /** `openPasswordChangeModal`: step 1 with every field cleared; staging is not touched. */
  function OpenChangeModal(): (r: ChangeModal)
    ensures r.visible && r.step == 1 && r.error.None?
    ensures r.currentPassword == "" && r.newPassword == "" && r.confirmNewPassword == ""
  {
    ChangeModal(true, 1, "", "", "", None)
  }

  /**
   * The mnemonic step 1 stages: its decoded text when the bundle has one (the
   * empty text included), `null` when it has none or decoding throws.
   */
  function StagedMnemonic(mn: Option<string>, password: string, c: Cipher): (r: Option<string>)
    ensures !Present(mn) ==> r.None?
    ensures Present(mn) ==> (r.Some? <==> c.decrypt(mn.value, password).Text?)
    ensures r.Some? ==> c.decrypt(mn.value, password) == Text(r.value)
  {
    if !Present(mn) then None
    else
      match c.decrypt(mn.value, password)
      case Text(t) => Some(t)
      case Malformed => None
  }

  /**
   * `handleVerifyCurrentPassword` (step 1): when the stored key decrypts to
   * non-empty text under the current password, stage the key and mnemonic
   * and move to step 2; otherwise stay with an error and stage nothing.
   */
  function VerifyCurrentPassword(s: Session, m: ChangeModal, read: Read, c: Cipher): (r: (Session, ChangeModal))
    ensures r.1.step == 2 || r.1.step == m.step
    ensures r.1.step != m.step || r.1.error.None? ==>
      && m.currentPassword != "" && IsWalletRecord(read) && read.entry.secret.JsonObject?
      && Present(read.entry.secret.encryptedPrivateKey)
      && var p := read.entry.secret;
      && Open(c, p.encryptedPrivateKey.value, m.currentPassword).Plain?
      && r.0 == Stage(s, Open(c, p.encryptedPrivateKey.value, m.currentPassword).text,
                      StagedMnemonic(p.encryptedMnemonic, m.currentPassword, c))
      && r.1 == m.(step := 2, currentPassword := "", error := None)
    ensures r.1.error.Some? ==> r.0 == s && r.1 == m.(error := r.1.error)
    ensures r.1.error == Some(WrongCurrentPassword) ==>
      && IsWalletRecord(read) && read.entry.secret.JsonObject?
      && Present(read.entry.secret.encryptedPrivateKey)
      && c.decrypt(read.entry.secret.encryptedPrivateKey.value, m.currentPassword) == Text("")
    ensures m.currentPassword == "" ==> r.1.error == Some(CurrentPasswordRequired)
    ensures m.currentPassword != "" && read.ReadFailed? ==> r.1.error == Some(VerifyFailed)
    ensures m.currentPassword != "" && !read.ReadFailed? && !IsWalletRecord(read) ==> r.1.error == Some(NoStoredWallet)
    ensures m.currentPassword != "" && IsWalletRecord(read) && !read.entry.secret.JsonObject? ==> r.1.error == Some(VerifyFailed)
    ensures m.currentPassword != "" && IsWalletRecord(read) && read.entry.secret.JsonObject? ==>
      var pk := read.entry.secret.encryptedPrivateKey;
      && (!Present(pk) ==> r.1.error == Some(NoEncryptedKey))
      && (Present(pk) && c.decrypt(pk.value, m.currentPassword) == Text("") ==> r.1.error == Some(WrongCurrentPassword))
      && (Present(pk) && c.decrypt(pk.value, m.currentPassword).Malformed? ==> r.1.error == Some(CurrentDecryptFailed))
      && (Present(pk) && Open(c, pk.value, m.currentPassword).Plain? ==> r.1.step == 2 && r.1.error.None?)
  {
    if m.currentPassword == "" then (s, m.(error := Some(CurrentPasswordRequired)))
    else
      match read
      case ReadFailed => (s, m.(error := Some(VerifyFailed)))
      case Absent => (s, m.(error := Some(NoStoredWallet)))
      case Found(entry) =>
        if entry.username != KeychainUsername || entry.secret == Blank then (s, m.(error := Some(NoStoredWallet)))
        else
          match entry.secret
          case Unparsable => (s, m.(error := Some(VerifyFailed)))
          case JsonNull => (s, m.(error := Some(VerifyFailed)))
          case JsonObject(pk, mn) =>
            if !Present(pk) then (s, m.(error := Some(NoEncryptedKey)))
            else
              match Open(c, pk.value, m.currentPassword)
              case Undecodable => (s, m.(error := Some(CurrentDecryptFailed)))
              case Empty => (s, m.(error := Some(WrongCurrentPassword)))
              case Plain(key) =>
                (Stage(s, key, StagedMnemonic(mn, m.currentPassword, c)),
                 m.(step := 2, currentPassword := "", error := None))
  }

  /**
   * `handleConfirmNewPassword` (step 2). The new password is checked before
   * staging is read; past that check staging is cleared on every path. With
   * no staged key the flow returns to step 1; otherwise the staged pair is
   * re-sealed under the new password and written.
   */
  function ConfirmNewPassword(s: Session, m: ChangeModal, slot: Slot, c: Cipher, writeFails: bool): (r: (Session, ChangeModal, Slot))
    ensures Text.Utf16Length(m.newPassword) < MinPasswordLength ==> r == (s, m.(error := Some(NewPasswordTooShort)), slot)
    ensures Text.Utf16Length(m.newPassword) >= MinPasswordLength && m.newPassword != m.confirmNewPassword ==>
      r == (s, m.(error := Some(NewPasswordMismatch)), slot)
    ensures Text.Utf16Length(m.newPassword) >= MinPasswordLength && m.newPassword == m.confirmNewPassword ==>
      r.0 == ClearStaged(s)
    ensures Text.Utf16Length(m.newPassword) >= MinPasswordLength && m.newPassword == m.confirmNewPassword && !Present(s.stagedKey) ==>
      r.1 == m.(step := 1, error := Some(StagingLost)) && r.2 == slot
    ensures r.2 != slot ==>
      && Present(s.stagedKey) && !writeFails
      && r.2 == Write(Seal(c, m.newPassword, s.stagedKey.value, s.stagedMnemonic))
      && r.1 == m.(visible := false, newPassword := "", confirmNewPassword := "", step := 1, error := None)
    ensures !writeFails && Present(s.stagedKey) && Text.Utf16Length(m.newPassword) >= MinPasswordLength && m.newPassword == m.confirmNewPassword ==>
      && r.2 == Write(Seal(c, m.newPassword, s.stagedKey.value, s.stagedMnemonic))
      && r.1 == m.(visible := false, newPassword := "", confirmNewPassword := "", step := 1, error := None)
    ensures writeFails && Present(s.stagedKey) && Text.Utf16Length(m.newPassword) >= MinPasswordLength && m.newPassword == m.confirmNewPassword ==>
      r == (ClearStaged(s), m.(error := Some(UpdateFailed)), slot)
  {
    if Text.Utf16Length(m.newPassword) < MinPasswordLength then (s, m.(error := Some(NewPasswordTooShort)), slot)
    else if m.newPassword != m.confirmNewPassword then (s, m.(error := Some(NewPasswordMismatch)), slot)
    else if !Present(s.stagedKey) then (ClearStaged(s), m.(step := 1, error := Some(StagingLost)), slot)
    else if writeFails then (ClearStaged(s), m.(error := Some(UpdateFailed)), slot)
    else
      var bundle := Seal(c, m.newPassword, s.stagedKey.value, s.stagedMnemonic);
      (ClearStaged(s),
       m.(visible := false, newPassword := "", confirmNewPassword := "", step := 1, error := None),
       Write(bundle))
  }

  /**
   * Closing the dialog as the screen does it: the cancel button only hides
   * it, the hardware back button also returns to step 1 and clears the
   * error. Neither touches the staged plaintext in the session.
   */
  function CloseChangeModalAsWritten(s: Session, m: ChangeModal, hardwareBack: bool): (r: (Session, ChangeModal))
    ensures r.0 == s
    ensures hardwareBack ==> r.1 == m.(visible := false, step := 1, error := None)
    ensures !hardwareBack ==> r.1 == m.(visible := false)
  {
    (s, if hardwareBack then m.(visible := false, step := 1, error := None) else m.(visible := false))
  }

  /**
   * The new-password rule counts UTF-16 code units: three emoji entered
   * twice pass both checks and reach the staged key.
   */
  lemma EmojiNewPasswordPassesLengthRule(s: Session, m: ChangeModal, slot: Slot, c: Cipher, writeFails: bool)
    requires m.newPassword == "\U{1F600}\U{1F600}\U{1F600}" && m.confirmNewPassword == m.newPassword
    ensures var r := ConfirmNewPassword(s, m, slot, c, writeFails);
      r.1.error != Some(NewPasswordTooShort) && r.1.error != Some(NewPasswordMismatch) && r.0 == ClearStaged(s)
  {
    Text.ThreeEmojiAreSixUnits();
  }

  /** Leaving step 2 through the close buttons keeps the plaintext key in memory. */
  lemma StagedKeySurvivesClose(s: Session, m: ChangeModal, hardwareBack: bool)
    requires s.stagedKey.Some?
    ensures CloseChangeModalAsWritten(s, m, hardwareBack).0.stagedKey == s.stagedKey
  {
  }

  /** Closing the dialog with the staged plaintext discarded, as every exit path should. */
  function CloseChangeModal(s: Session, m: ChangeModal, hardwareBack: bool): (r: (Session, ChangeModal))
    ensures Staged(r.0) == (None, None)
    ensures r.0 == ClearStaged(s)
    ensures hardwareBack ==> r.1 == m.(visible := false, step := 1, error := None)
    ensures !hardwareBack ==> r.1 == m.(visible := false)
  {
    var (_, m') := CloseChangeModalAsWritten(s, m, hardwareBack);
    (ClearStaged(s), m')
  }

  // ---------------------------------------------------------------------------
  // Network selection and logout
  // ---------------------------------------------------------------------------

  /** `handleChangeNetwork`: choosing the active network does nothing; any other becomes active. */
  function ChangeNetwork(s: Session, name: string): (r: Session)
    ensures s.network == Some(name) ==> r == s
    ensures r.network == Some(name)
    ensures r.(network := s.network) == s
  {
    if s.network == Some(name) then s else SetNetwork(s, name)
  }

  /**
   * `handleLogout`: the provider's logout, then the change dialog's new
   * password fields, step and error are reset, whether or not the deletion
   * succeeded.
   */
  function HandleLogout(s: Session, m: ChangeModal, slot: Slot, deleteFails: bool): (r: (Session, ChangeModal, Slot))
    ensures (r.0, r.2) == Logout(s, slot, deleteFails)
    ensures r.1 == m.(newPassword := "", confirmNewPassword := "", step := 1, error := None)
  {
    var (s', slot') := Logout(s, slot, deleteFails);
    (s', m.(newPassword := "", confirmNewPassword := "", step := 1, error := None), slot')
  }
}

=== FILE: shuffle.dfy ===
/**
 * The quiz's Fisher–Yates shuffle. `Math.random()` is replaced by the
 * sequence of swap partners it would have produced, one per iteration.
 */
module Shuffle {

  /**
   * `Math.floor(Math.random() * current)` for a random value in `[0, 1)`:
   * a swap partner in `[0, current)`.
   */
  function Draw(random: real, current: nat): (r: int)
    requires 0.0 <= random < 1.0 && current > 0
    ensures 0 <= r < current
  {
    var x := random * current as real;
    assert x < current as real;
    x.Floor
  }

  /**
   * Swap partners for a pass over `n` elements: iteration `k` runs with
   * `currentIndex == n - k` and draws a partner in `[0, n - k)`.
   */
  predicate ValidDraws(n: nat, draws: seq<int>) {
    |draws| == n && forall k :: 0 <= k < n ==> 0 <= draws[k] < n - k
  }

  /** Exchange two positions; every other position keeps its element. */
  function Swap<T>(s: seq<T>, i: nat, j: nat): (r: seq<T>)
    requires i < |s| && j < |s|
    ensures |r| == |s| && r[i] == s[j] && r[j] == s[i]
    ensures forall k :: 0 <= k < |s| && k != i && k != j ==> r[k] == s[k]
  {
    seq(|s|, k requires 0 <= k < |s| => if k == i then s[j] else if k == j then s[i] else s[k])
  }

  /** A swap only rearranges: the multiset of elements is unchanged. */
  lemma SwapPermutes<T>(s: seq<T>, i: nat, j: nat)
    requires i < |s| && j < |s|
    ensures multiset(Swap(s, i, j)) == multiset(s)
  {
    assert Swap(s, i, j) == s[i := s[j]][j := s[i]];
    if i != j {
      assert multiset(s[i := s[j]]) == multiset(s) - multiset{s[i]} + multiset{s[j]};
    }
  }

  /** The array after the first `k` iterations of the loop. */
  function FisherYates<T>(xs: seq<T>, draws: seq<int>, k: nat): (r: seq<T>)
    requires ValidDraws(|xs|, draws) && k <= |xs|
    ensures |r| == |xs|
  {
    if k == 0 then xs
    else Swap(FisherYates(xs, draws, k - 1), |xs| - k, draws[k - 1])
  }

  /** However many iterations have run, the array is a permutation of the input. */
  lemma {:induction false} FisherYatesPermutes<T>(xs: seq<T>, draws: seq<int>, k: nat)
    requires ValidDraws(|xs|, draws) && k <= |xs|
    ensures multiset(FisherYates(xs, draws, k)) == multiset(xs)
  {
    if k == 0 {
      assert FisherYates(xs, draws, k) == xs;
    } else {
      var before := FisherYates(xs, draws, k - 1);
      calc {
        multiset(FisherYates(xs, draws, k));
        multiset(Swap(before, |xs| - k, draws[k - 1]));
        { SwapPermutes(before, |xs| - k, draws[k - 1]); }
        multiset(before);
        { FisherYatesPermutes(xs, draws, k - 1); }
        multiset(xs);
      }
    }
  }

  /**
   * `shuffleArray`: walk `currentIndex` down from the length to 0, swapping
   * the element just below it with a drawn partner. The result is a
   * permutation of the input, whatever partners are drawn.
   */
  method ShuffleArray<T>(xs: seq<T>, draws: seq<int>) returns (ys: seq<T>)
    requires ValidDraws(|xs|, draws)
    ensures |ys| == |xs|
    ensures multiset(ys) == multiset(xs)
    ensures ys == FisherYates(xs, draws, |xs|)
  {
    ys := xs;
    var current := |xs|;
    while current != 0
      invariant 0 <= current <= |xs|
      invariant ys == FisherYates(xs, draws, |xs| - current)
      decreases current
    {
      var k := |xs| - current;
      var random := draws[k];
      current := current - 1;
      ys := Swap(ys, current, random);
    }
    FisherYatesPermutes(xs, draws, |xs|);
  }
}

=== FILE: sorting.dfy ===
/**
 * The stable comparison sorts the wallet relies on, as a functional insertion
 * sort ordered by an integer key, largest key first. Ascending order is the
 * same sort on the negated key.
 */
module Sorting {
  import opened Common

  /** Keys never increase from left to right. */
  predicate SortedBy<T>(s: seq<T>, key: T -> int) {
    forall i, j :: 0 <= i < j < |s| ==> key(s[i]) >= key(s[j])
  }

  /**
   * Place `x` after every element whose key is at least its own, so equal
   * keys keep their arrival order.
   */
  function Insert<T>(x: T, s: seq<T>, key: T -> int): (r: seq<T>)
    ensures |r| == |s| + 1
    ensures r[0] == x || (|s| > 0 && r[0] == s[0])
  {
    if s == [] then [x]
    else if key(s[0]) < key(x) then [x] + s
    else [s[0]] + Insert(x, s[1..], key)
  }

  lemma {:induction false} InsertSorted<T>(x: T, s: seq<T>, key: T -> int)
    requires SortedBy(s, key)
    ensures SortedBy(Insert(x, s, key), key)
  {
    if s != [] && key(s[0]) >= key(x) {
      InsertSorted(x, s[1..], key);
      var t := Insert(x, s[1..], key);
      forall j | 0 < j < |t| + 1
        ensures key(s[0]) >= key(([s[0]] + t)[j])
      {
        assert t[j - 1] in multiset(t) by {
          InsertPermutes(x, s[1..], key);
        }
        InsertMembers(x, s[1..], key, j - 1);
      }
    }
  }

  /** Every element of an insertion is `x` or an element of `s`. */
  lemma {:induction false} InsertMembers<T>(x: T, s: seq<T>, key: T -> int, j: nat)
    requires j < |s| + 1
    ensures Insert(x, s, key)[j] == x || Insert(x, s, key)[j] in s
  {
    InsertPermutes(x, s, key);
    var r := Insert(x, s, key);
    assert r[j] in multiset(r);
  }

  lemma {:induction false} InsertPermutes<T>(x: T, s: seq<T>, key: T -> int)
    ensures multiset(Insert(x, s, key)) == multiset(s) + multiset{x}
  {
    if s != [] && key(s[0]) >= key(x) {
      InsertPermutes(x, s[1..], key);
      assert s == [s[0]] + s[1..];
    }
  }

  /** `sort` with a comparator that orders by descending key. */
  function SortDesc<T>(s: seq<T>, key: T -> int): (r: seq<T>)
    ensures |r| == |s|
  {
    if s == [] then []
    else Insert(s[|s| - 1], SortDesc(s[..|s| - 1], key), key)
  }

  /** The sort orders by key and only rearranges its input. */
  lemma {:induction false} SortDescCorrect<T>(s: seq<T>, key: T -> int)
    ensures SortedBy(SortDesc(s, key), key)
    ensures multiset(SortDesc(s, key)) == multiset(s)
  {
    if s != [] {
      var init := s[..|s| - 1];
      SortDescCorrect(init, key);
      InsertSorted(s[|s| - 1], SortDesc(init, key), key);
      InsertPermutes(s[|s| - 1], SortDesc(init, key), key);
      assert s == init + [s[|s| - 1]];
    }
  }

  /**
   * Cutting a sorted list keeps a sorted prefix that the whole list
   * contains, and nothing cut has a larger key than anything kept.
   */
  lemma PrefixKeepsLargest<T>(s: seq<T>, k: nat, key: T -> int)
    requires SortedBy(s, key)
    ensures SortedBy(Take(s, k), key)
    ensures multiset(Take(s, k)) <= multiset(s)
    ensures forall x, y :: x in multiset(s) - multiset(Take(s, k)) && y in Take(s, k) ==> key(x) <= key(y)
  {
    if k < |s| {
      var front, back := s[..k], s[k..];
      assert s == front + back;
      assert Take(s, k) == front;
      assert multiset(s) - multiset(front) == multiset(back);
      forall x, y | x in multiset(back) && y in front
        ensures key(x) <= key(y)
      {
        CutNotLarger(s, k, key, x, y);
      }
    } else {
      assert Take(s, k) == s;
    }
  }

  lemma CutNotLarger<T>(s: seq<T>, k: nat, key: T -> int, x: T, y: T)
    requires SortedBy(s, key) && k <= |s|
    requires x in s[k..] && y in s[..k]
    ensures key(x) <= key(y)
  {
    var a :| k <= a < |s| && s[a] == x;
    var b :| 0 <= b < k && s[b] == y;
  }
}

=== FILE: text.dfy ===
/**
 * The string primitives the wallet's handlers lean on: `trim`, `split(' ')`,
 * ASCII `toLowerCase` and the clamping `substring`.
 */
module Text {

  /**
   * White space as `String.prototype.trim` strips it: the ECMAScript
   * WhiteSpace and LineTerminator code points.
   */
  predicate IsWhitespace(c: char) {
    || c == '\t' || c == '\n' || c == '\U{B}' || c == '\U{C}' || c == '\r' || c == ' '
    || c == '\U{A0}' || c == '\U{1680}'
    || ('\U{2000}' <= c <= '\U{200A}')
    || c == '\U{2028}' || c == '\U{2029}' || c == '\U{202F}' || c == '\U{205F}' || c == '\U{3000}'
    || c == '\U{FEFF}'
  }

  predicate AllWhitespace(s: string) {
    forall i :: 0 <= i < |s| ==> IsWhitespace(s[i])
  }

  /** `trimStart`: drop leading white space. */
  function TrimStart(s: string): (r: string)
    ensures |r| <= |s| && r == s[|s| - |r|..]
    ensures AllWhitespace(s[..|s| - |r|])
    ensures r == "" || !IsWhitespace(r[0])
  {
    if |s| > 0 && IsWhitespace(s[0]) then
      var r := TrimStart(s[1..]);
      assert s[..|s| - |r|] == [s[0]] + s[1..][..|s| - 1 - |r|];
      r
    else s
  }

  /** `trimEnd`: drop trailing white space. */
  function TrimEnd(s: string): (r: string)
    ensures |r| <= |s| && r == s[..|r|]
    ensures AllWhitespace(s[|r|..])
    ensures r == "" || !IsWhitespace(r[|r| - 1])
  {
    if |s| > 0 && IsWhitespace(s[|s| - 1]) then
      var r := TrimEnd(s[..|s| - 1]);
      assert s[|r|..] == s[..|s| - 1][|r|..] + [s[|s| - 1]];
      r
    else s
  }

  /**
   * `trim`: the slice of `s` that starts where `trimStart` stops, with no
   * white space at either end (`TrimCutsWhitespace`: everything around it
   * is white space).
   */
  function Trim(s: string): (r: string)
    ensures r == "" || (!IsWhitespace(r[0]) && !IsWhitespace(r[|r| - 1]))
    ensures |TrimStart(s)| >= |r| && r == s[|s| - |TrimStart(s)|..|s| - |TrimStart(s)| + |r|]
  {
    var t := TrimStart(s);
    var r := TrimEnd(t);
    InfixOfSuffix(s, |s| - |t|, t, r);
    r
  }

  /** Trimming cuts only white space: all of `s` before and after the trimmed slice. */
  lemma TrimCutsWhitespace(s: string)
    ensures var i := |s| - |TrimStart(s)|;
      i + |Trim(s)| <= |s| && AllWhitespace(s[..i]) && AllWhitespace(s[i + |Trim(s)|..])
  {
    var t := TrimStart(s);
    InfixOfSuffix(s, |s| - |t|, t, TrimEnd(t));
  }

  /**
   * A prefix `r` of the suffix `t == s[i..]`, with white space after it in
   * `t`, is the slice of `s` at `i` with white space after it in `s`; it
   * starts where `t` does.
   */
  lemma InfixOfSuffix(s: string, i: nat, t: string, r: string)
    requires i <= |s| && t == s[i..] && |r| <= |t| && r == t[..|r|]
    requires AllWhitespace(t[|r|..])
    ensures i + |r| <= |s| && r == s[i..i + |r|] && AllWhitespace(s[i + |r|..])
    ensures r != "" ==> r[0] == t[0]
  {
    assert s[i + |r|..] == t[|r|..];
  }

  /** A string trims to nothing exactly when it is all white space. */
  lemma TrimEmptyIff(s: string)
    ensures Trim(s) == "" <==> AllWhitespace(s)
  {
    var t := TrimStart(s);
    if Trim(s) == "" {
      assert AllWhitespace(t[0..]);
      assert t == "";
      assert s[..|s|] == s;
    } else {
      assert t != "";
      assert s[|s| - |t|] == t[0];
    }
  }

  /** Trimming twice changes nothing. */
  lemma TrimIdempotent(s: string)
    ensures Trim(Trim(s)) == Trim(s)
  {
    var r := Trim(s);
    TrimStartNoop(r);
    TrimEndNoop(r);
  }

  lemma TrimStartNoop(r: string)
    requires r == "" || !IsWhitespace(r[0])
    ensures TrimStart(r) == r
  {
  }

  lemma TrimEndNoop(r: string)
    requires r == "" || !IsWhitespace(r[|r| - 1])
    ensures TrimEnd(r) == r
  {
  }

  /**
   * `s.split(sep)` for a one-character separator: every occurrence cuts, so
   * consecutive separators produce empty parts and `""` splits to `[""]`.
   */
  function Split(s: string, sep: char): (parts: seq<string>)
    ensures |parts| == Count(s, sep) + 1
    ensures forall k :: 0 <= k < |parts| ==> sep !in parts[k]
  {
    if |s| == 0 then [""]
    else
      var rest := Split(s[1..], sep);
      if s[0] == sep then [""] + rest
      else [[s[0]] + rest[0]] + rest[1..]
  }

  /** Occurrences of `c` in `s`. */
  function Count(s: string, c: char): nat {
    if |s| == 0 then 0 else (if s[0] == c then 1 else 0) + Count(s[1..], c)
  }

  /** `parts.join(sep)`. */
  function Join(parts: seq<string>, sep: char): string {
    if |parts| == 0 then ""
    else if |parts| == 1 then parts[0]
    else parts[0] + [sep] + Join(parts[1..], sep)
  }

  /** Joining the parts of a split gives the original string back. */
  lemma {:induction false} JoinSplit(s: string, sep: char)
    ensures Join(Split(s, sep), sep) == s
    decreases |s|
  {
    if |s| > 0 {
      var rest := Split(s[1..], sep);
      JoinSplit(s[1..], sep);
      if s[0] == sep {
        assert Split(s, sep) == [""] + rest;
        assert ([""] + rest)[1..] == rest;
        assert [s[0]] + s[1..] == s;
      } else {
        var parts := [[s[0]] + rest[0]] + rest[1..];
        assert Split(s, sep) == parts;
        if |rest| == 1 {
          assert parts == [[s[0]] + rest[0]];
          assert [s[0]] + s[1..] == s;
        } else {
          assert parts[1..] == rest[1..];
          assert Join(rest, sep) == rest[0] + [sep] + Join(rest[1..], sep);
          assert [s[0]] + s[1..] == s;
        }
      }
    }
  }

  /** A string without the separator splits into exactly itself. */
  lemma SplitWithoutSeparator(s: string, sep: char)
    requires sep !in s
    ensures Split(s, sep) == [s]
  {
    if |s| > 0 {
      SplitWithoutSeparator(s[1..], sep);
      assert [s[0]] + s[1..] == s;
    }
  }

  /**
   * UTF-16 code units of one character: those outside the Basic Multilingual
   * Plane take a surrogate pair.
   */
  function CodeUnits(c: char): (n: nat)
    ensures n == 1 || n == 2
    ensures n == 2 <==> c as int > 0xFFFF
  {
    if c as int > 0xFFFF then 2 else 1
  }

  /** `s.length` in JavaScript, which counts UTF-16 code units, not characters. */
  function Utf16Length(s: string): (n: nat)
    ensures |s| <= n <= 2 * |s|
    ensures n == |s| <==> forall i :: 0 <= i < |s| ==> s[i] as int <= 0xFFFF
  {
    if |s| == 0 then 0 else CodeUnits(s[0]) + Utf16Length(s[1..])
  }

  /** Lengths add up over concatenation, as `(a + b).length` does. */
  lemma {:induction false} Utf16LengthAppend(a: string, b: string)
    ensures Utf16Length(a + b) == Utf16Length(a) + Utf16Length(b)
  {
    if |a| > 0 {
      assert (a + b)[1..] == a[1..] + b;
      Utf16LengthAppend(a[1..], b);
    } else {
      assert a + b == b;
    }
  }

  /** Three emoji make a six-unit string although they are three characters. */
  lemma ThreeEmojiAreSixUnits()
    ensures |"\U{1F600}\U{1F600}\U{1F600}"| == 3
    ensures Utf16Length("\U{1F600}\U{1F600}\U{1F600}") == 6
  {
    assert "\U{1F600}\U{1F600}\U{1F600}"[1..] == "\U{1F600}\U{1F600}";
    assert "\U{1F600}\U{1F600}"[1..] == "\U{1F600}";
  }

  /** ASCII `toLowerCase`: `A`..`Z` become `a`..`z`, everything else is kept. */
  function LowerChar(c: char): (r: char)
    ensures 'A' <= c <= 'Z' ==> 'a' <= r <= 'z' && r as int == c as int + 32
    ensures !('A' <= c <= 'Z') ==> r == c
  {
    if 'A' <= c <= 'Z' then (c as int + 32) as char else c
  }

  function ToLower(s: string): (r: string)
    ensures |r| == |s|
    ensures forall i :: 0 <= i < |s| ==> r[i] == LowerChar(s[i])
  {
    if |s| == 0 then "" else [LowerChar(s[0])] + ToLower(s[1..])
  }

  /** Lower-casing is idempotent, so comparing lowered strings is case-blind. */
  lemma ToLowerIdempotent(s: string)
    ensures ToLower(ToLower(s)) == ToLower(s)
  {
  }

  /** `a.toLowerCase() === b.toLowerCase()`. */
  predicate SameIgnoringCase(a: string, b: string) {
    ToLower(a) == ToLower(b)
  }

  /** Clamp an index into `[0, n]` the way `String.prototype.substring` does. */
  function Clamp(x: int, n: nat): (r: nat)
    ensures r <= n
    ensures 0 <= x <= n ==> r == x
    ensures x < 0 ==> r == 0
    ensures x > n ==> r == n
  {
    if x < 0 then 0 else if x > n then n else x
  }

  /** `s.substring(start, end)`: clamped, and with the bounds swapped when reversed. */
  function Substring(s: string, start: int, end: int): (r: string)
    ensures 0 <= start <= end <= |s| ==> r == s[start..end]
    ensures 0 <= end <= start <= |s| ==> r == s[end..start]
    ensures 0 <= start <= |s| < end ==> r == s[start..]
    ensures start < 0 && 0 <= end <= |s| ==> r == s[..end]
    ensures |r| <= |s|
  {
    var a := Clamp(start, |s|);
    var b := Clamp(end, |s|);
    if a <= b then s[a..b] else s[b..a]
  }
}

=== FILE: tokens.dfy ===
/** The token list the wallet values, and the two lookups over it. */
module Tokens {
  import opened Common
  import opened Text
  import Networks

  datatype Token = Token(
    symbol: string,
    name: string,
    decimals: nat,
    displayDecimals: nat,
    addresses: map<string, string>,   // contract address per network name
    isNative: bool,
    fixedPriceTry: Option<nat>)        // only KMPS has a fixed TRY price

  const Kmps: Token := Token("KMPS", "Kampüs Token", 18, 2, map[], false, Some(25))
  const Avax: Token := Token("AVAX", "Avalanche", 18, 4, map[], true, None)
  const WethE: Token := Token("WETH.e", "Wrapped Ether", 18, 5,
    map[Networks.Mainnet.name := "0x49d5c2BdFfac6CE2BFdB6640F4F80F226bc10bAB",
        Networks.Fuji.name := "0xd00ae08403b9bbb9124bb305c09058e32c39a48c"],
    false, None)
  const WbtcE: Token := Token("WBTC.e", "Wrapped Bitcoin", 8, 6,
    map[Networks.Mainnet.name := "0x50b7545627a5162f82a992c33b87adc75187b218",
        Networks.Fuji.name := "0x408d4cd0adb7cebd1f1a1c33a0a903a5e3119b8f"],
    false, None)

  /** `TOKENS`, in display order. */
  const AllTokens: seq<Token> := [Kmps, Avax, WethE, WbtcE]

  /** The position of the first token satisfying `matches` (`Array.prototype.findIndex`). */
  function FindIndex(ts: seq<Token>, matches: Token -> bool): (r: Option<nat>)
    ensures r.Some? ==> r.value < |ts| && matches(ts[r.value])
    ensures r.Some? ==> forall j :: 0 <= j < r.value ==> !matches(ts[j])
    ensures r.None? ==> forall j :: 0 <= j < |ts| ==> !matches(ts[j])
  {
    if |ts| == 0 then None
    else if matches(ts[0]) then Some(0)
    else
      match FindIndex(ts[1..], matches)
      case None => None
      case Some(i) => Some(i + 1)
  }

  /** `findTokenBySymbol`: the first token whose symbol equals `symbol` ignoring case. */
  function FindBySymbol(symbol: string): (r: Option<Token>)
    ensures r.Some? ==> r.value in AllTokens && SameIgnoringCase(r.value.symbol, symbol)
    ensures r.None? <==> forall i :: 0 <= i < |AllTokens| ==> !SameIgnoringCase(AllTokens[i].symbol, symbol)
  {
    match FindIndex(AllTokens, (t: Token) => SameIgnoringCase(t.symbol, symbol))
    case None => None
    case Some(i) => Some(AllTokens[i])
  }

  /**
   * `getTokenAddress`: the contract address on `networkName` of the token
   * whose symbol is exactly `symbol`; undefined for an unknown symbol or a
   * network the token has no address on.
   */
  function AddressOf(symbol: string, networkName: string): (r: Option<string>)
    ensures r.Some? <==> exists i :: 0 <= i < |AllTokens| && AllTokens[i].symbol == symbol && networkName in AllTokens[i].addresses
    ensures r.Some? ==> forall i :: 0 <= i < |AllTokens| && AllTokens[i].symbol == symbol ==> r.value == AllTokens[i].addresses[networkName]
  {
    SymbolsDistinct();
    match FindIndex(AllTokens, (t: Token) => t.symbol == symbol)
    case None => None
    case Some(i) =>
      var addresses := AllTokens[i].addresses;
      if networkName in addresses then Some(addresses[networkName]) else None
  }

  /** No two listed symbols coincide, even ignoring case, so both lookups are unambiguous. */
  lemma SymbolsDistinct()
    ensures forall i, j :: 0 <= i < j < |AllTokens| ==> ToLower(AllTokens[i].symbol) != ToLower(AllTokens[j].symbol)
    ensures forall i, j :: 0 <= i < j < |AllTokens| ==> AllTokens[i].symbol != AllTokens[j].symbol
  {
    forall i, j | 0 <= i < j < |AllTokens|
      ensures ToLower(AllTokens[i].symbol) != ToLower(AllTokens[j].symbol)
    {
      var a, b := AllTokens[i].symbol, AllTokens[j].symbol;
      if i == 2 && j == 3 {
        LowerDiffers(a, b, 1);
      } else {
        LowerDiffers(a, b, 0);
      }
    }
  }

  lemma LowerDiffers(a: string, b: string, k: nat)
    requires k < |a| && k < |b| && LowerChar(a[k]) != LowerChar(b[k])
    ensures ToLower(a) != ToLower(b)
  {
    assert ToLower(a)[k] != ToLower(b)[k];
  }

  /** KMPS and AVAX have no contract address on any network. */
  lemma NoAddressForKmpsOrAvax(networkName: string)
    ensures AddressOf("KMPS", networkName).None?
    ensures AddressOf("AVAX", networkName).None?
  {
  }

  /** WBTC.e counts in 8 decimals and every other token in 18; only KMPS has a fixed price. */
  lemma DecimalsAndFixedPrice()
    ensures forall t :: t in AllTokens ==> t.decimals == (if t.symbol == "WBTC.e" then 8 else 18)
    ensures forall t :: t in AllTokens ==> (t.fixedPriceTry.Some? <==> t.symbol == "KMPS")
  {
  }
}

=== FILE: valuation.dfy ===
/**
 * Portfolio valuation in Turkish lira: BigNumber fixed-point arithmetic over
 * balances and Chainlink answers, with every chain read supplied as input.
 */
module Valuation {
  import opened Common
  import Networks
  import Tokens
  import Feeds

  function Pow10(n: nat): (r: nat)
    ensures r >= 1
  {
    if n == 0 then 1 else 10 * Pow10(n - 1)
  }

  /** `parseUnits("30.0", 8)`: 30 lira per dollar with 8 decimals. */
  const DefaultRate: nat := 30 * Pow10(8)

  /** The outcome of one chain read: a non-negative value, or a thrown error. */
  datatype Reading = Answer(value: nat) | Failed

  /**
   * The chain as the valuation sees it for one wallet: its native balance,
   * its balance on a token contract, and the latest answer of a feed.
   */
  datatype ChainView = ChainView(
    nativeBalance: Reading,
    tokenBalance: string -> Reading,
    latestAnswer: string -> Reading)

  /** The feed table's network: mainnet exactly when the active network is Mainnet. */
  function FeedNetworkOf(active: Networks.Network): (r: Feeds.FeedNetwork)
    ensures r == Feeds.MainnetFeeds <==> active.name == Networks.Mainnet.name
  {
    if active.name == Networks.Mainnet.name then Feeds.MainnetFeeds else Feeds.FujiFeeds
  }

  /** The latest answer of `pair`'s feed on `network`, or 0 when there is none or the read throws. */
  function FeedAnswer(pair: string, network: Feeds.FeedNetwork, view: ChainView): (r: nat)
    ensures r != 0 ==> Feeds.FeedFor(pair, network).Some?
    ensures var f := Feeds.FeedFor(pair, network);
      f.Some? && f.value.address != "" && view.latestAnswer(f.value.address).Answer? ==>
        r == view.latestAnswer(f.value.address).value
    ensures var f := Feeds.FeedFor(pair, network);
      f.None? || f.value.address == "" || view.latestAnswer(f.value.address).Failed? ==> r == 0
  {
    var feed := Feeds.FeedFor(pair, network);
    if feed.None? || feed.value.address == "" then 0
    else
      match view.latestAnswer(feed.value.address)
      case Answer(a) => a
      case Failed => 0
  }

  /**
   * The USD to TRY rate with 8 decimals: the reciprocal `10^16 div answer`
   * of a non-zero TRY/USD answer; the fixed 30 lira otherwise.
   */
  function UsdToTryRate(network: Feeds.FeedNetwork, view: ChainView): (r: nat)
    ensures FeedAnswer("TRY/USD", network, view) == 0 ==> r == DefaultRate
    ensures FeedAnswer("TRY/USD", network, view) != 0 ==> r == Pow10(16) / FeedAnswer("TRY/USD", network, view)
  {
    var answer := FeedAnswer("TRY/USD", network, view);
    if answer != 0 then Pow10(16) / answer else DefaultRate
  }

  /**
   * A live rate is the largest 8-decimal rate whose product with the TRY/USD
   * answer does not exceed one (scaled by 10^16): it rounds the reciprocal down.
   */
  lemma RateRoundsReciprocalDown(network: Feeds.FeedNetwork, view: ChainView)
    requires FeedAnswer("TRY/USD", network, view) != 0
    ensures var a := FeedAnswer("TRY/USD", network, view);
      UsdToTryRate(network, view) * a <= Pow10(16) < (UsdToTryRate(network, view) + 1) * a
  {
    var a := FeedAnswer("TRY/USD", network, view);
    var q := Pow10(16) / a;
    assert Pow10(16) == q * a + Pow10(16) % a;
  }

  /** There is no TRY/USD feed on fuji, so off Mainnet the fixed rate always applies. */
  lemma FujiUsesDefaultRate(view: ChainView)
    ensures UsdToTryRate(Feeds.FujiFeeds, view) == DefaultRate
  {
    Feeds.TryUsdMainnetOnly();
  }

  /**
   * The feed pair that prices a bridged token, if any: only the two bridged
   * tokens have one, and it has a feed on both networks.
   */
  function PricePair(symbol: string): (r: Option<string>)
    ensures r.Some? <==> symbol == "WETH.e" || symbol == "WBTC.e"
    ensures r.Some? ==> Feeds.FeedFor(r.value, Feeds.MainnetFeeds).Some? && Feeds.FeedFor(r.value, Feeds.FujiFeeds).Some?
  {
    if symbol == "WETH.e" then Some("ETH/USD")
    else if symbol == "WBTC.e" then Some("BTC/USD")
    else None
  }

  /** What the loop body learns about one token: its raw balance and 8-decimal USD price. */
  datatype Quote = Quote(balance: nat, priceUsd: nat)

  /**
   * One iteration's reads. KMPS is never read and holds nothing. AVAX takes
   * the native balance and the AVAX/USD answer; a failing feed read keeps the
   * balance already read. A bridged token is read at its contract address on
   * the active network and priced through its feed pair; without an address,
   * or when the balance read throws, it holds nothing.
   */
  function QuoteFor(token: Tokens.Token, active: Networks.Network, view: ChainView): (r: Quote)
    ensures token.symbol == "KMPS" ==> r == Quote(0, 0)
    ensures token.symbol == "AVAX" ==>
      r.balance == (if view.nativeBalance.Answer? then view.nativeBalance.value else 0)
    ensures token.symbol != "KMPS" && token.symbol != "AVAX" && !Present(Tokens.AddressOf(token.symbol, active.name)) ==>
      r == Quote(0, 0)
    ensures r.priceUsd != 0 ==> token.symbol == "AVAX" || PricePair(token.symbol).Some?
    ensures token.symbol == "AVAX" ==>
      && (view.nativeBalance.Failed? ==> r == Quote(0, 0))
      && (view.nativeBalance.Answer? ==>
            r == Quote(view.nativeBalance.value, FeedAnswer("AVAX/USD", FeedNetworkOf(active), view)))
    ensures var address := Tokens.AddressOf(token.symbol, active.name);
      token.symbol != "KMPS" && token.symbol != "AVAX" && Present(address) ==>
        var b := view.tokenBalance(address.value);
        && (b.Failed? ==> r == Quote(0, 0))
        && (b.Answer? && PricePair(token.symbol).None? ==> r == Quote(b.value, 0))
        && (b.Answer? && PricePair(token.symbol).Some? ==>
              r == Quote(b.value, FeedAnswer(PricePair(token.symbol).value, FeedNetworkOf(active), view)))
  {
    var network := FeedNetworkOf(active);
    if token.symbol == "KMPS" then Quote(0, 0)
    else if token.symbol == "AVAX" then
      match view.nativeBalance
      case Failed => Quote(0, 0)
      case Answer(b) => Quote(b, FeedAnswer("AVAX/USD", network, view))
    else
      var address := Tokens.AddressOf(token.symbol, active.name);
      if !Present(address) then Quote(0, 0)
      else
        match view.tokenBalance(address.value)
        case Failed => Quote(0, 0)
        case Answer(b) =>
          match PricePair(token.symbol)
          case Some(pair) => Quote(b, FeedAnswer(pair, network, view))
          case None => Quote(b, 0)
  }

  /**
   * A token's value in lira with 8 decimals. KMPS is valued at its fixed
   * price; any other token at `(balance * price div 10^decimals) * rate div 10^8`
   * when both the price and the rate are non-zero, and at 0 otherwise.
   */
  function ValueTry(token: Tokens.Token, q: Quote, rate: nat): (r: nat)
    ensures token.symbol == "KMPS" ==>
      var exact := q.balance * (token.fixedPriceTry.GetOr(0) * Pow10(8));
      r * Pow10(token.decimals) <= exact < (r + 1) * Pow10(token.decimals)
    ensures token.symbol != "KMPS" && (q.priceUsd == 0 || rate == 0) ==> r == 0
  {
    if token.symbol == "KMPS" then
      MulDiv(q.balance, token.fixedPriceTry.GetOr(0) * Pow10(8), token.decimals)
    else if q.priceUsd != 0 && rate != 0 then
      MulDiv(MulDiv(q.balance, q.priceUsd, token.decimals), rate, 8)
    else 0
  }

  /** BigNumber's `a.mul(b).div(parseUnits("1", decimals))` on non-negative values. */
  function MulDiv(a: nat, b: nat, decimals: nat): (r: nat)
    ensures r * Pow10(decimals) <= a * b < r * Pow10(decimals) + Pow10(decimals)
  {
    FloorDiv(a * b, Pow10(decimals))
  }

  /** Integer division rounding down, characterised by its bounds. */
  function FloorDiv(p: nat, d: nat): (r: nat)
    requires d > 0
    ensures r * d <= p < r * d + d
  {
    var r := p / d;
    assert p == r * d + p % d;
    r
  }

  /**
   * Both roundings go down: scaled back up, a value never exceeds the exact
   * product of balance, price and rate, and no price or no rate means no value.
   */
  lemma ValueNeverOverstates(token: Tokens.Token, q: Quote, rate: nat)
    requires token.symbol != "KMPS"
    ensures ValueTry(token, q, rate) * Pow10(8) * Pow10(token.decimals) <= q.balance * q.priceUsd * rate
    ensures q.priceUsd == 0 || rate == 0 ==> ValueTry(token, q, rate) == 0
  {
    var d, e := Pow10(token.decimals), Pow10(8);
    if q.priceUsd != 0 && rate != 0 {
      var usd := MulDiv(q.balance, q.priceUsd, token.decimals);
      var v := MulDiv(usd, rate, 8);
      assert ValueTry(token, q, rate) == v;
      assert v * e <= usd * rate;
      assert usd * d <= q.balance * q.priceUsd;
      calc {
        v * e * d;
      <= { MulMono(v * e, usd * rate, d); }
        usd * rate * d;
      == { assert usd * rate * d == usd * d * rate; }
        usd * d * rate;
      <= { MulMono(usd * d, q.balance * q.priceUsd, rate); }
        q.balance * q.priceUsd * rate;
      }
    }
  }

  /**
   * Nor does it fall far below: the shortfall is under one unit of the
   * result plus the rounding of the USD stage carried through the rate.
   */
  lemma ValueUnderstatesByLessThanAUnit(token: Tokens.Token, q: Quote, rate: nat)
    requires token.symbol != "KMPS" && q.priceUsd != 0 && rate != 0
    ensures var d := Pow10(token.decimals);
      q.balance * q.priceUsd * rate < (ValueTry(token, q, rate) + 1) * Pow10(8) * d + d * rate
  {
    var d, e := Pow10(token.decimals), Pow10(8);
    var usd := MulDiv(q.balance, q.priceUsd, token.decimals);
    var v := MulDiv(usd, rate, 8);
    assert ValueTry(token, q, rate) == v;
    calc {
      q.balance * q.priceUsd * rate;
    < { MulStrict(q.balance * q.priceUsd, (usd + 1) * d, rate); }
      (usd + 1) * d * rate;
    == { assert (usd + 1) * d * rate == usd * rate * d + d * rate; }
      usd * rate * d + d * rate;
    < { MulStrict(usd * rate, (v + 1) * e, d); }
      (v + 1) * e * d + d * rate;
    }
  }

  lemma MulStrict(a: nat, b: nat, c: nat)
    requires a < b && c > 0
    ensures a * c < b * c
  {
  }

  lemma MulMono(a: nat, b: nat, c: nat)
    requires a <= b
    ensures a * c <= b * c
  {
  }

  /** KMPS is never read, so it adds nothing whatever its fixed price. */
  lemma KmpsAddsNothing(active: Networks.Network, view: ChainView, rate: nat)
    ensures ValueTry(Tokens.Kmps, QuoteFor(Tokens.Kmps, active, view), rate) == 0
  {
  }

  /** One displayed row: the token and its value in lira (8 decimals). */
  datatype Asset = Asset(token: Tokens.Token, valueTry: nat)

  /** The value of every row. */
  function Total(assets: seq<Asset>): nat {
    if assets == [] then 0 else assets[0].valueTry + Total(assets[1..])
  }

  lemma {:induction false} TotalAppend(assets: seq<Asset>, a: Asset)
    ensures Total(assets + [a]) == Total(assets) + a.valueTry
  {
    if assets != [] {
      assert (assets + [a])[1..] == assets[1..] + [a];
      TotalAppend(assets[1..], a);
    }
  }

  /** The valued row for one token. */
  function Row(token: Tokens.Token, active: Networks.Network, view: ChainView, rate: nat): Asset {
    Asset(token, ValueTry(token, QuoteFor(token, active, view), rate))
  }

  /** The screen's asset list and lira total. */
  datatype Portfolio = Portfolio(assets: seq<Asset>, total: nat)

  /**
   * The loop of `fetchAssetsData`: one row per token, in order, with the
   * running total kept as the sum of the rows.
   */
  method ValueTokens(tokens: seq<Tokens.Token>, row: Tokens.Token -> Asset)
    returns (r: Portfolio)
    ensures |r.assets| == |tokens|
    ensures forall i :: 0 <= i < |tokens| ==> r.assets[i] == row(tokens[i])
    ensures r.total == Total(r.assets)
  {
    var assets: seq<Asset> := [];
    var total := 0;
    var i := 0;
    while i < |tokens|
      invariant 0 <= i <= |tokens|
      invariant |assets| == i
      invariant forall j :: 0 <= j < i ==> assets[j] == row(tokens[j])
      invariant total == Total(assets)
    {
      var next := row(tokens[i]);
      TotalAppend(assets, next);
      assets := assets + [next];
      total := total + next.valueTry;
      i := i + 1;
    }
    r := Portfolio(assets, total);
  }

  /**
   * `fetchAssetsData`: without a provider, an address or a network the list
   * is empty and the total zero; otherwise there is one row per listed token,
   * in list order, each valued at the rate read once up front, and the total
   * is the sum of the rows.
   */
  method FetchAssets(hasProvider: bool, walletAddress: Option<string>, active: Option<Networks.Network>, view: ChainView)
    returns (r: Portfolio)
    ensures !hasProvider || !Present(walletAddress) || active.None? ==> r == Portfolio([], 0)
    ensures hasProvider && Present(walletAddress) && active.Some? ==>
      && |r.assets| == |Tokens.AllTokens|
      && (forall i :: 0 <= i < |r.assets| ==>
            r.assets[i] == Row(Tokens.AllTokens[i], active.value, view, UsdToTryRate(FeedNetworkOf(active.value), view)))
      && r.total == Total(r.assets)
  {
    if !hasProvider || !Present(walletAddress) || active.None? {
      return Portfolio([], 0);
    }
    var rate := UsdToTryRate(FeedNetworkOf(active.value), view);
    r := ValueTokens(Tokens.AllTokens, (t: Tokens.Token) => Row(t, active.value, view, rate));
  }
}

=== FILE: vault.dfy ===
/**
 * The credential vault: the encrypted bundle, the single secure-store slot it
 * lives in, and the foreign primitives (the AES passphrase cipher and the
 * ethers key derivation/validation) as parameters constrained only by the
 * properties the wallet relies on.
 */
module Vault {
  import opened Common

  /** The secure-store service every screen reads and writes. */
  const WalletStorageKey: string := "currentUserWallet"
  /** The fixed username the bundle is written under. */
  const KeychainUsername: string := "walletBundle"
  /** The shortest password a bundle may be sealed under, at setup and on rotation. */
  const MinPasswordLength: nat := 6

  /**
   * Result of `AES.decrypt(ct, pw).toString(Utf8)`: the decoded text (empty
   * for most wrong passwords), or a decoding failure (the call throws).
   */
  datatype Decoded = Text(text: string) | Malformed

  /** The symmetric cipher: `AES.encrypt(p, pw).toString()` and the decoding above. */
  datatype Cipher = Cipher(
    encrypt: (string, string) -> string,
    decrypt: (string, string) -> Decoded)

  /**
   * What the wallet assumes of the cipher: decrypting under the sealing
   * password gives the plaintext back, and a ciphertext is never the empty
   * string (the OpenSSL-style output always starts with the salt header).
   * Nothing is assumed about decryption under another password.
   */
  ghost predicate Sound(c: Cipher) {
    && (forall p, w :: c.decrypt(c.encrypt(p, w), w) == Text(p))
    && (forall p, w :: c.encrypt(p, w) != "")
  }

  /**
   * The ethers oracles: `Wallet.fromMnemonic(m).privateKey` (None when it
   * throws) and whether `new Wallet(k)` accepts a private key.
   */
  datatype KeyOracle = KeyOracle(
    derive: string -> Option<string>,
    valid: string -> bool)

  /** A derived key is a valid key, and no valid key is the empty string. */
  ghost predicate Coherent(o: KeyOracle) {
    && (forall m :: o.derive(m).Some? ==> o.valid(o.derive(m).value))
    && (forall k :: o.valid(k) ==> k != "")
  }

  /** The sealed bundle; `encryptedMnemonic` is `null` for a key-only wallet. */
  datatype Bundle = Bundle(encryptedPrivateKey: string, encryptedMnemonic: Option<string>)

  /**
   * The stored secret as `JSON.parse` sees it: the empty string, text that
   * does not parse, the literal `null`, or an object with (possibly missing
   * or `null`) bundle fields.
   */
  datatype Payload =
    | Blank
    | Unparsable
    | JsonNull
    | JsonObject(encryptedPrivateKey: Option<string>, encryptedMnemonic: Option<string>)

  /** A secure-store record: `{username, password}` with the secret in `password`. */
  datatype Entry = Entry(username: string, secret: Payload)

  /** The one slot under `WalletStorageKey`. */
  type Slot = Option<Entry>

  /** Outcome of `getGenericPassword`: the record, `false` when the slot is empty, or a throw. */
  datatype Read = Found(entry: Entry) | Absent | ReadFailed

  function ReadSlot(slot: Slot, fails: bool): (r: Read)
    ensures fails <==> r.ReadFailed?
    ensures !fails ==> (r.Found? <==> slot.Some?) && (slot.Some? ==> r.entry == slot.value)
  {
    if fails then ReadFailed
    else match slot
      case None => Absent
      case Some(e) => Found(e)
  }

  /**
   * Seal a private key and, when one is given (non-empty), a mnemonic under
   * `password`, each encrypted independently.
   */
  function Seal(c: Cipher, password: string, privateKey: string, mnemonic: Option<string>): (b: Bundle)
    ensures b.encryptedMnemonic.None? <==> !Present(mnemonic)
    ensures Sound(c) ==> c.decrypt(b.encryptedPrivateKey, password) == Text(privateKey)
    ensures Sound(c) && Present(mnemonic) ==>
      c.decrypt(b.encryptedMnemonic.value, password) == Text(mnemonic.value)
  {
    Bundle(
      c.encrypt(privateKey, password),
      if Present(mnemonic) then Some(c.encrypt(mnemonic.value, password)) else None)
  }

  /** `JSON.stringify` of a bundle, as `JSON.parse` reads it back. */
  function Serialize(b: Bundle): (p: Payload)
    ensures p.JsonObject? && p.encryptedPrivateKey == Some(b.encryptedPrivateKey)
    ensures p.encryptedMnemonic == b.encryptedMnemonic
  {
    JsonObject(Some(b.encryptedPrivateKey), b.encryptedMnemonic)
  }

  /** `setGenericPassword(KeychainUsername, JSON.stringify(b))`: the slot afterwards. */
  function Write(b: Bundle): (slot: Slot)
    ensures slot.Some? && slot.value.username == KeychainUsername
    ensures slot.value.secret == Serialize(b)
  {
    Some(Entry(KeychainUsername, Serialize(b)))
  }

  /**
   * The slot holds `privateKey` (and `mnemonic`, exactly when one is
   * present) sealed under `password`, under the fixed username.
   */
  ghost predicate Holds(c: Cipher, slot: Slot, password: string, privateKey: string, mnemonic: Option<string>) {
    && slot.Some?
    && slot.value.username == KeychainUsername
    && slot.value.secret.JsonObject?
    && var p := slot.value.secret;
    && Present(p.encryptedPrivateKey)
    && c.decrypt(p.encryptedPrivateKey.value, password) == Text(privateKey)
    && (Present(p.encryptedMnemonic) <==> Present(mnemonic))
    && (p.encryptedMnemonic.None? <==> !Present(mnemonic))
    && (Present(mnemonic) ==> c.decrypt(p.encryptedMnemonic.value, password) == Text(mnemonic.value))
  }

  /** Writing a sealed bundle makes the slot hold exactly what was sealed. */
  lemma WriteSealHolds(c: Cipher, password: string, privateKey: string, mnemonic: Option<string>)
    requires Sound(c)
    ensures Holds(c, Write(Seal(c, password, privateKey, mnemonic)), password, privateKey, mnemonic)
  {
    var b := Seal(c, password, privateKey, mnemonic);
    assert b.encryptedPrivateKey == c.encrypt(privateKey, password);
    if Present(mnemonic) {
      assert b.encryptedMnemonic.value == c.encrypt(mnemonic.value, password);
    }
  }

  /** How a screen reads one decrypted field: non-empty text, empty text, or a throw. */
  datatype Opened = Plain(text: string) | Empty | Undecodable

  /** Decrypt `ct` under `password` and classify it; only non-empty text counts as success. */
  function Open(c: Cipher, ct: string, password: string): (r: Opened)
    ensures r.Plain? <==> c.decrypt(ct, password).Text? && c.decrypt(ct, password).text != ""
    ensures r.Plain? ==> r.text == c.decrypt(ct, password).text && r.text != ""
    ensures r.Empty? <==> c.decrypt(ct, password) == Text("")
  {
    match c.decrypt(ct, password)
    case Malformed => Undecodable
    case Text(t) => if t == "" then Empty else Plain(t)
  }

  /** Opening a sealed field under the sealing password recovers the plaintext. */
  lemma OpenSealed(c: Cipher, plain: string, password: string)
    requires Sound(c)
    ensures Open(c, c.encrypt(plain, password), password) == if plain == "" then Empty else Plain(plain)
  {
    assert c.decrypt(c.encrypt(plain, password), password) == Text(plain);
  }
}
